=== FILE: README.md ===
# Feature encoding for food–disease relation sentences

This project models the feature pipeline of the food–disease association
classifier in Dafny.

- **Row loop.** Each annotated sentence has a `[F]` marker for the food
  mention and a `[D]` marker for the disease mention. The sentence is
  rewritten twice: once with the entity texts and once with the marker words
  `Foodentity` and `Diseaseentity`. Each version goes through a tagger that
  yields `(surface, base form, POS, chunk)` records.
- **Per-row features.**
  - The word tokens, chunk tags and POS tags are projections of the records.
  - Two signed distance arrays give each token's distance from the food span
    and from the disease span. The distances are clamped to
    `[-max_d, max_d]`.
- **model_preprocess.** This joins two such batches, the annotated one and
  the unannotated one:
  - it post-pads the distance rows with `max_d + 1`;
  - it numbers chunk tags, POS tags and word tokens over the union of both
    batches;
  - it re-encodes every row through these numberings;
  - it post-pads each row with the vocabulary size, up to the common width
    `MAX_LEN`.
- **clean_text.** This normalizes raw sentences before tagging: annotation
  tags become markers, punctuation is spaced out, and in every word that
  has a digit and no ASCII letter (such as `12.5%`) each digit run collapses
  to `1`.

## Modules and files
- `text.dfy` (**Text**): `str.replace`.
- `dicts.dfy` (**Dicts**): the `{x: i for i, x in enumerate(xs)}` comprehension and its inversion.
- `outcomes.dfy` (**Outcomes**): the exceptions the row loop can raise, as `Result` values.
- `tokens.dfy` (**Tokens**): the tagger's record and the three projections.
- `entity_locator.dfy` (**EntityLocator**): the marker lookup, the offset correction, and why it is right.
- `distance.dfy` (**Distance**): one distance array, built in place on an `array<int>`.
- `features.dfy` (**Features**): `extract_distance_features` and the row loop of `extract_features`.
- `vocabulary.dfy` (**Vocabulary**): symbol sets, dense ids, re-encoding and post-padding.
- `preprocess.dfy` (**Preprocess**): `model_preprocess`, which overwrites two `array<Slot>` feature lists.
- `clean_text.dfy` (**CleanText**): `clean_text` from line 26 on.

The tagger is a parameter `parse: string -> seq<Token>`. It is a function value, so the same text always gets the same parse.

### Where the code contradicts its own names and docstring (the model follows the code)

- **Tagger pair order.** `src/features.py:98` builds the pair as (original-sentence parse, marker-sentence parse). `src/features.py:26` unpacks it as (marker sentence, original sentence). The projections of lines 5-20 read component 1. So, as written:
  - the markers are looked up in the parse of the ORIGINAL sentence;
  - the lengths of the distance arrays come from the marker sentence's parse;
  - all five output lists describe the marker sentence.

  `Features.RowSpecAsWritten` states this. The intended reading, with the marker sentence first, is what `Features.DistanceFeaturesLocateEntities` proves correct.
- **List layouts.** `extract_features` returns `(wtokens, fd, dd, chunkf, posf)`, with no length, at `src/features.py:118`. `model_preprocess` reads slots 0 and 1 as distances, 2 as chunk tags, 3 as POS tags and 4 as word tokens, and the last slot as a length. The model takes the lists in `model_preprocess`'s own layout (`Preprocess.Layout`).
- **Word ids are not decoded.** The docstring at `src/preprocess.py:60` describes `id2wordtoken` as the mapping from numerical ids to word strings. At `src/preprocess.py:126` the comprehension binds `postag` and `i` but yields `wordtoken`. That name is not bound by the comprehension, so every id maps to one and the same value. The model takes that value as a parameter and does not claim that `id2wordtoken` decodes anything.

## Model

| member | source | states |
|---|---|---|
| Tokens.ExtractChunkFeatures | src/features.py:5-8 | one chunk tag per record of component 1 of the tagger pair, entry `i` being record `i`'s chunk tag |
| Tokens.ExtractPosFeatures | src/features.py:11-14 | one POS tag per record of component 1, entry `i` being record `i`'s tag |
| Tokens.ExtractWordTokens | src/features.py:17-20 | one surface form per record of component 1, entry `i` being record `i`'s surface |
| Tokens.ProjectionsAligned | src/features.py:5-20 | the three projections have equal length and together rebuild every record of component 1; component 0 has no effect on them |
| Dicts.IndexMap | src/features.py:36 | the keys of `{x: i for i, x in enumerate(xs)}` are exactly the elements of `xs`, each mapped to a position that holds it |
| Dicts.IndexMapLast | src/features.py:36 | a repeated key maps to its last position, because later entries overwrite earlier ones |
| Dicts.IndexMapDense | src/preprocess.py:84 | on a duplicate-free sequence, element `i` gets id `i` and the ids are exactly `0..n-1` |
| Dicts.Range | src/preprocess.py:84 | the id set `0..n-1` has `n` elements |
| Dicts.Invert | src/preprocess.py:85 | `{i: x for x, i in m.items()}` of an injective map has the values of `m` as keys and is a two-way inverse of `m` |
| Text.Replace | src/features.py:89-94 | `str.replace` introduces no character that is not in the input or in the replacement |
| Text.ReplaceAbsent | src/features.py:89-94 | a string without the pattern is returned unchanged |
| Text.ReplaceFirst | src/preprocess.py:26-27 | the first occurrence is replaced and the scan resumes after it: `a + pat + b`, with no earlier match, becomes `a + rep + replace(b)` |
| EntityLocator.Surfaces | src/features.py:41 | one surface per record, entry `i` being record `i`'s surface |
| EntityLocator.LocateMarkers | src/features.py:36-38 | the lookup succeeds iff both marker words occur; a missing food marker is reported before a missing disease marker; the two anchors are distinct positions of the parse |
| EntityLocator.LocateMarkersLastOccurrence | src/features.py:36-38 | each anchor is the last occurrence of its marker word |
| EntityLocator.CorrectOffsets | src/features.py:43-48 | only the later entity's anchor moves, by the other entity's token count minus one, and only when that count exceeds one; anchors never move back |
| EntityLocator.SpansInExpansion | src/features.py:43-51 | when each entity parses to at least one token and each marker expands into those tokens, the corrected spans `[st, st + len)` hold exactly those tokens in the expanded sentence |
| EntityLocator.CorrectedAnchor | src/features.py:43-48 | the corrected anchor of an entity is the number of expanded tokens before its marker |
| Features.ShiftLaterAnchor | src/features.py:43-48 | the in-place reassignment of `f_st`/`d_st` gives exactly the corrected offsets |
| Distance.Saturate | src/features.py:57-58 | after both masked overwrites a value lies in `[-max_d, max_d]`: it is unchanged if it was already in range, and otherwise set to the bound it crossed |
| Distance.DistanceFeature | src/features.py:53-58 | filling an array of zeros slice by slice and clamping fails with a broadcast error exactly when the start is past the end (except for a start of 1 on no tokens); otherwise it yields the saturated signed distance of each token from the span |
| Distance.DistanceBounds | src/features.py:57-58 | every distance lies in `[-max_d, max_d]` and the span itself is zero |
| Distance.DistanceSign | src/features.py:53-56 | for `max_d >= 1` a distance is zero exactly inside the span, negative before it and positive after it |
| Distance.DistanceInRange | src/features.py:53-58 | a value within the bound is the raw distance `i - st` before the span, `i - end + 1` after it |
| Distance.ScenarioSingleTokens | src/features.py:53-65 | five tokens with one-token entities at 0 and 3 give `[0,1,2,3,4]` and `[-3,-2,-1,0,1]` |
| Distance.ScenarioSaturation | src/features.py:53-58 | ten tokens with `max_d = 3` clamp every far token to 3 |
| Features.ExtractDistanceFeatures | src/features.py:23-67 | extract_distance_features fails when a marker is missing or a slice cannot broadcast; otherwise it yields the two arrays for the corrected anchors and the entity token counts |
| Features.BuildDistances | src/features.py:50-65 | the food array is built first and its failure wins; otherwise both arrays for their spans |
| Features.DistancesAtShape | src/features.py:53-65 | both arrays exist iff neither start is past the end, except that a start of 1 on no tokens still succeeds because numpy broadcasts a size-one range; then each has one entry per token, every entry within `[-max_d, max_d]` |
| Features.DistanceFeaturesShape | src/features.py:23-67 | a missing-marker failure happens iff component 0 lacks a marker word; on success both arrays have one entry per record of component 1, each within the bound |
| Features.DistanceFeaturesLocateEntities | src/features.py:36-65 | if each entity parses to at least one token, `max_d >= 1`, and component 1 is component 0 with each marker expanded into its entity's tokens, the call succeeds, the corrected spans hold the entity tokens, and each array is zero exactly on its own entity's tokens |
| Features.ExpandedSpans | src/features.py:43-65 | the same over surface sequences, when each entity parses to at least one token and `max_d >= 1`: corrected spans hold the entities, and each array is zero exactly on its span |
| Features.DistancesAtZeroes | src/features.py:50-65 | spans that fit give both arrays, each zero exactly on its own span |
| Features.ExtractRow | src/features.py:88-116 | one loop iteration: both rewritten sentences, the tagger pair in line 98's order, the words, the distances (which may fail) and the two tag lists |
| Features.CollectRows | src/features.py:84-118 | collecting succeeds iff every row does; then every list has one entry per row, entry `i` being row `i`'s; otherwise the error is that of the first failing row, all earlier rows having succeeded |
| Features.CollectErrSticks | src/features.py:105-106 | once a row has raised, later rows do not change the outcome |
| Features.ExtractFeatures | src/features.py:84-118 | the loop appends each row's five entries in order and stops at the first row that raises, which gives the collected outcome |
| Features.ExtractFeaturesRows | src/features.py:84-118 | extract_features succeeds iff every row does, with entry `i` of every list from row `i`, and otherwise fails with the first failing row's error |
| Features.RowSpecAsWritten | src/features.py:98 | with the pair order of line 98, a row fails on a missing marker iff the ORIGINAL sentence's parse lacks a marker word, and its five entries have the length of the MARKER sentence's parse, the words being its surfaces |
| Features.EmptyFoodMisplacesDisease | src/features.py:43-51 | with a food text that parses to no tokens before a one-token disease, the anchors are not corrected and the disease token gets distance -1 instead of 0 |
| Features.ScenarioMultiTokenFood | src/features.py:43-48 | a two-token food entity before the disease moves the disease anchor from 4 to 5 and leaves the food anchor at 1 |
| Vocabulary.Flatten | src/preprocess.py:80-81 | the flattened rows hold exactly the symbols that occur in some row |
| Vocabulary.Symbols | src/preprocess.py:80-81 | the tag set is exactly the symbols that occur in a row of either batch |
| Vocabulary.Enumerate | src/preprocess.py:84 | iterating a set visits each element exactly once, in some order |
| Vocabulary.EnumeratedIds | src/preprocess.py:80-84 | numbering an enumeration of the tag set gives a bijection from the tags onto `0..n-1` |
| Vocabulary.InverseIds | src/preprocess.py:84-97 | the inverse of a dense numbering decodes every id and is re-encoded by the numbering; it has one entry per tag; the pad value `len(id2tag)` is no id |
| Vocabulary.EncodeRow | src/preprocess.py:88-89 | a re-encoded row has the length of the original |
| Vocabulary.EncodeRows | src/preprocess.py:88-91 | re-encoding keeps the number of rows and each row's length |
| Vocabulary.PadRows | src/preprocess.py:69-76 | post-padding keeps the number of rows |
| Vocabulary.PaddedRows | src/preprocess.py:69-76 | each padded row has width `MAX_LEN`, starts with the original row, and continues with the pad value only |
| Vocabulary.PaddedEncoding | src/preprocess.py:88-97 | after encoding and padding, a position inside the original row holds a real id that decodes to the original symbol, and a position after it holds the pad value, which is no id |
| Vocabulary.ScenarioChunkVocabulary | src/preprocess.py:80-85 | tags `B-NP I-NP` and `B-NP O` form a three-tag vocabulary |
| Preprocess.MaxLen | src/preprocess.py:67 | `MAX_LEN` is at least both recorded lengths and equal to one of them |
| Preprocess.PadStep | src/preprocess.py:69-76 | the padded slot keeps its rows in order, each now `MAX_LEN` wide, starting with the old row and continuing with the pad value only; every other slot is kept |
| Preprocess.PadDistances | src/preprocess.py:69-76 | both distance slots of a list are post-padded in place, and nothing else changes |
| Preprocess.EncodeSlot | src/preprocess.py:80-91 | the numbering's keys are the union of both batches' symbols, numbered densely; the slot of both lists is re-encoded in place |
| Preprocess.PadBoth | src/preprocess.py:94-97 | the slot of both lists is post-padded in place, and nothing else changes |
| Preprocess.TagStage | src/preprocess.py:80-118 | chunk or POS stage: union vocabulary with dense ids, then the slot of both lists re-encoded and padded with the vocabulary size |
| Preprocess.WordStage | src/preprocess.py:121-138 | word stage: union vocabulary with dense ids, slot 4 re-encoded and padded with its size; `id2wordtoken` has keys `0..n-1`, each mapped to the one value `wordtoken` |
| Preprocess.ModelPreprocess | src/preprocess.py:50-140 | returns `MAX_LEN`; the three vocabularies are the unions over both batches with dense ids; both lists are left exactly as the padded and encoded specification describes; `id2wordtoken` has one key per word id |
| Preprocess.PreprocessedSlots | src/preprocess.py:69-138 | slots 0 to 4 are padded or encoded and then padded, with pad `max_d + 1` or the vocabulary size; slots after 4 (the length among them) are unchanged |
| Preprocess.PreprocessedShape | src/preprocess.py:69-138 | all five slots become integer rows, as many as before, each of width `MAX_LEN`; distance rows keep their values and continue with `max_d + 1` |
| Preprocess.PreprocessedDecodes | src/preprocess.py:88-138 | chunk and POS ids decode back to the original tags through the inverse maps; word ids are the vocabulary ids of the original tokens; padding holds the vocabulary size, which is no id |
| CleanText.Mask | src/preprocess.py:29 | allowed characters stay in place, any change is to a space, and afterwards only allowed characters and plain spaces are left, so no other whitespace |
| CleanText.TakeWord | src/preprocess.py:39 | the longest whitespace-free prefix |
| CleanText.Split | src/preprocess.py:39 | `split()` yields non-empty words without whitespace |
| CleanText.SplitJoin | src/preprocess.py:39-47 | splitting words joined with single spaces gives the words back |
| CleanText.SplitWordPrefix | src/preprocess.py:39 | a word followed by whitespace or by nothing is split off whole |
| CleanText.TakeWordPrefix | src/preprocess.py:39 | a word is taken whole up to the whitespace that follows it |
| CleanText.CollapseDigits | src/preprocess.py:43 | collapsing never lengthens a word and keeps a non-empty word non-empty |
| CleanText.DropDigits | src/preprocess.py:43 | strips a leading digit run, leaving a suffix that does not start with a digit |
| CleanText.CollapseDigitsCollapsed | src/preprocess.py:43 | every digit of the result is a `1`, and no two digits are adjacent |
| CleanText.DropDigitsNonDigits | src/preprocess.py:43 | dropping leading digits removes no other character |
| CleanText.CollapseDigitsNonDigits | src/preprocess.py:43 | collapsing keeps every character other than a digit, in order |
| CleanText.CollapseDigitsChars | src/preprocess.py:43 | each character of the result is a digit or comes from the word |
| CleanText.HasDigitCons | src/preprocess.py:41 | a leading character other than a digit does not affect having a digit |
| CleanText.CollapseDigitsHasDigit | src/preprocess.py:41-43 | the result has a digit iff the word has one |
| CleanText.CollapseDigitsIdempotent | src/preprocess.py:43 | collapsing twice is collapsing once |
| CleanText.NormalizeWord | src/preprocess.py:40-43 | a word with a letter or without a digit is kept; the result is still a word, has a digit or a letter exactly when the word does, keeps the characters other than digits in order, and if it changed, every digit in it is a `1` and no two digits are adjacent (where the `1`s stand is CleanText.NormalizeWordRuns) |
| CleanText.CollapsedWord | src/preprocess.py:41-43 | collapsing a word with a digit and no letter leaves a word with a digit and no letter, the other characters in order, every digit a `1` and no two digits adjacent |
| CleanText.CollapseRun | src/preprocess.py:43 | a non-empty run of digits collapses to `1`, and a text without digits is unchanged |
| CleanText.CollapseAppend | src/preprocess.py:43 | collapsing distributes over a concatenation whose cut does not fall inside a digit run; with CollapseRun, each maximal digit run becomes one `1` in its place |
| CleanText.DropDigitsAppend | src/preprocess.py:43 | the leading digit run of `x + y` ends inside `x` when `x` holds a non-digit |
| CleanText.NormalizeWordRuns | src/preprocess.py:40-43 | a word with a digit and no letter normalizes piece by piece at every cut outside a digit run, so each digit run becomes a single `1` where it stands |
| CleanText.NormalizeWordIdempotent | src/preprocess.py:40-43 | normalizing a normalized word changes nothing |
| CleanText.NormalizeOne | src/preprocess.py:40-44 | the two nested tests on one word give its normalization |
| CleanText.NormalizeAll | src/preprocess.py:38-45 | one normalized word per split word, in order |
| CleanText.NormalizeAllPrefix | src/preprocess.py:45 | normalizing one more word of a prefix appends that word's normalization |
| CleanText.NormalizeWords | src/preprocess.py:38-45 | the word loop yields one normalized word per split word, in order |
| CleanText.SpaceOut | src/preprocess.py:26-36 | the reassignments of lines 26-36 leave only allowed characters and plain spaces, so `split()` meets no other whitespace |
| CleanText.SpacedAllowed | src/preprocess.py:29-36 | after the mask, the spacing replacements bring in only spaces and characters the mask allows |
| CleanText.CleanTextFrom | src/preprocess.py:26-47 | the reassignments, the word loop and the join give the joined normalized words of the spaced sentence |
| CleanText.CleanTextWords | src/preprocess.py:38-47 | splitting the cleaned sentence gives back exactly the normalized words of the spaced sentence, one per word, in order |
| CleanText.ScenarioNormalize | src/preprocess.py:41-43 | `12.5%` becomes `1.1%` and `IL6`, which has a letter, is kept |
| CleanText.CollapsePercent | src/preprocess.py:43 | each digit run of `12.5%` collapses to `1` |

## Left out

- The GENIA tagger process and its start-up for every row (`src/features.py:97`) are not modelled. The tagger is the parameter `parse`, and nothing is assumed about what it returns.
- The pandas DataFrame and `iterrows` are represented as a sequence of `Row` values holding the three columns the loop reads.
- numpy float arrays become sequences of unbounded integers. Every value written is an integer, so nothing is lost, except that the float dtype itself is not modelled. The output dtype of `pad_sequences` is not modelled either.
- `maximum_distance` is an integer. A fractional bound is not modelled.
- Preprocess.ModelPreprocess requires every row to fit in `MAX_LEN`. A longer row is truncated by the padding library, and that case is not modelled. It also requires the two lists to be distinct objects: passing one list twice would re-encode already-encoded slots.
- Preprocess.ModelPreprocess does not return `id2chunktag` or `id2postag`; the source computes and discards them. They appear only as the inverses in Preprocess.PreprocessedDecodes.
- Preprocess.WordStage and Preprocess.ModelPreprocess take the value of the unbound name `wordtoken` as a parameter.
  - In Python 2 it is leaked from the list comprehensions of lines 121-122. It is the last row of `unann_features[4]` when that slot has a row, and otherwise the last row of `ann_features[4]`.
  - In Python 3 the name is unbound, and the comprehension raises `NameError` as soon as there is a word token. That exception is not modelled.
- Preprocess.Layout, the slot layout of a feature list, is an assumption of the model. Slots 0 and 1 are integer rows, slots 2 to 4 are string rows, and the last slot is a length. The source also runs when, for example, slots 2 to 4 hold integers; such lists are not modelled.
- Set iteration order is not modelled. Vocabulary.Enumerate picks an arbitrary order, and every property is proved for any order.
- Lines 5-24 of `src/preprocess.py` are not modelled: `remove_bracket_words`, and the regular expression that drops text between a double backtick and the next colon. CleanText.CleanTextFrom starts at line 26.
- CleanText.NormalizeWord leaves out `word.strip()`. A word produced by `split()` has no surrounding whitespace, so strip changes nothing.
- CleanText.IsSpace covers only the six C whitespace characters: space, tab, line feed, carriage return, vertical tab and form feed. Python's `str.split()` also splits on `\x1c` to `\x1f` and on non-ASCII whitespace. The mask of line 29 has already turned all of those into spaces, and the replacements after it add only spaces and allowed characters, so `split()` never meets them (CleanText.SpacedAllowed, CleanText.SpaceOut).
- Text.Replace: its own contract only says where the characters of the result come from. What gets replaced is stated by Text.ReplaceAbsent and Text.ReplaceFirst.
- Features.DistanceFeaturesLocateEntities assumes that both entity texts parse to at least one token and that `max_d >= 1`.
  - With `max_d = 0` every distance is zero, so the arrays no longer single out the entities.
  - With an empty parse the source itself goes wrong. `src/features.py:43-48` moves the later anchor only when the earlier entity's count exceeds one, so when that count is zero the later anchor is not moved back by one. Example (Features.EmptyFoodMisplacesDisease): marker parse `Foodentity Diseaseentity`, food parse empty, disease parse `flu`. The expanded sentence is `flu`, the anchors stay at 0 and 1, and the disease array is `[-1]` where the disease token should get 0.
- EntityLocator.SpansInExpansion does not cover an entity that parses to no tokens, for the reason just given: the corrected span of the later entity is then one position too far.
- Features.ExpandedSpans has the same gap: it assumes both entities parse to at least one token, and with an empty parse the later entity's span is misplaced as shown by Features.EmptyFoodMisplacesDisease.
- `src/models.py`, the network, is not part of this model.

=== FILE: clean_text.dfy ===
/** clean_text after its regular-expression bracket and backtick steps
    (preprocess.py:26-47): the annotation tags become markers, disallowed
    characters become spaces, punctuation is spaced out, and every word made
    of digits and punctuation only has each run of digits collapsed to `1`. */
module CleanText {
  import opened Text

  predicate IsDigit(c: char) { '0' <= c <= '9' }

  predicate IsLetter(c: char) { 'A' <= c <= 'Z' || 'a' <= c <= 'z' }

  /** The characters `[A-Za-z0-9(),!?;:\[\]\.\%]` keeps (preprocess.py:29). */
  predicate Allowed(c: char)
  {
    IsLetter(c) || IsDigit(c) ||
    c == '(' || c == ')' || c == ',' || c == '!' || c == '?' || c == ';' || c == ':' ||
    c == '[' || c == ']' || c == '.' || c == '%'
  }

  /** The whitespace `str.split()` splits on, as far as ASCII goes. */
  predicate IsSpace(c: char)
  {
    c == ' ' || c == '\t' || c == '\n' || c == '\r' || c == '\U{000B}' || c == '\U{000C}'
  }

  /** `re.sub(r"[^A-Za-z0-9(),!?;:\[\]\.\%]", " ", s)`: every allowed
      character stays where it is, anything else may only turn into a space,
      and afterwards only allowed characters and plain spaces are left, so no
      whitespace other than `' '`. */
  function Mask(s: string): (r: string)
    ensures |r| == |s|
    ensures forall i :: 0 <= i < |s| && Allowed(s[i]) ==> r[i] == s[i]
    ensures forall i :: 0 <= i < |s| && r[i] != s[i] ==> r[i] == ' '
    ensures forall c :: c in r ==> Allowed(c) || c == ' '
    ensures forall c :: c in r && IsSpace(c) ==> c == ' '
  {
    var r := seq(|s|, i requires 0 <= i < |s| => if Allowed(s[i]) then s[i] else ' ');
    assert forall c :: c in r ==> Allowed(c) || c == ' ' by {
      forall c | c in r ensures Allowed(c) || c == ' ' {
        var i :| 0 <= i < |r| && r[i] == c;
      }
    }
    r
  }

  /** Lines 26-36: the tags, the mask, and a space put on each side of
      `,`, `!`, `(`, `)`, `?`, `:` and `;`, in that order. */
  function Spaced(s: string): string
  {
    var t := Replace(Replace(s, "ANN-FOOD", " [F] "), "ANN-DISEASE", " [D] ");
    var m := Mask(t);
    Replace(Replace(Replace(Replace(Replace(Replace(Replace(
      m, ",", " , "), "!", " ! "), "(", " ( "), ")", " ) "), "?", " ? "), ":", " : "), ";", " ; ")
  }

  /** The longest prefix of `s` without whitespace. */
  function TakeWord(s: string): (r: string)
    ensures |r| <= |s| && r == s[..|r|]
    ensures forall c :: c in r ==> !IsSpace(c)
    ensures |r| < |s| ==> IsSpace(s[|r|])
  {
    if s == [] || IsSpace(s[0]) then []
    else [s[0]] + TakeWord(s[1..])
  }

  /** `s.split()`: the maximal runs of non-whitespace, left to right. */
  function Split(s: string): (r: seq<string>)
    ensures forall i :: 0 <= i < |r| ==> IsWord(r[i])
    decreases |s|
  {
    if s == [] then []
    else if IsSpace(s[0]) then Split(s[1..])
    else
      var w := TakeWord(s);
      [w] + Split(s[|w|..])
  }

  /** A word as `split` yields it: non-empty, without whitespace. */
  predicate IsWord(w: string)
  {
    w != [] && forall c :: c in w ==> !IsSpace(c)
  }

  /** `' '.join(words)`. */
  function Join(words: seq<string>): string
  {
    if words == [] then []
    else if |words| == 1 then words[0]
    else words[0] + " " + Join(words[1..])
  }

  /** Joining words with single spaces and splitting again gives the words
      back. */
  lemma {:induction false} SplitJoin(words: seq<string>)
    requires forall i :: 0 <= i < |words| ==> IsWord(words[i])
    ensures Split(Join(words)) == words
  {
    if words != [] {
      var w := words[0];
      if |words| == 1 {
        SplitWordPrefix(w, []);
        assert w + [] == w;
      } else {
        var rest := Join(words[1..]);
        var tail := " " + rest;
        assert Join(words) == w + tail;
        SplitWordPrefix(w, tail);
        SplitSpace(rest);
        SplitJoin(words[1..]);
        assert words == [w] + words[1..];
      }
    }
  }

  /** A leading space is skipped. */
  lemma SplitSpace(s: string)
    ensures Split(" " + s) == Split(s)
  {
    assert (" " + s)[1..] == s;
  }

  /** A word followed by nothing or by whitespace is split off whole. */
  lemma SplitWordPrefix(w: string, tail: string)
    requires IsWord(w)
    requires tail == [] || IsSpace(tail[0])
    ensures Split(w + tail) == [w] + Split(tail)
  {
    TakeWordPrefix(w, tail);
    assert (w + tail)[|w|..] == tail;
  }

  lemma {:induction false} TakeWordPrefix(w: string, tail: string)
    requires forall c :: c in w ==> !IsSpace(c)
    requires tail == [] || IsSpace(tail[0])
    ensures TakeWord(w + tail) == w
  {
    if w != [] {
      assert (w + tail)[0] == w[0];
      assert (w + tail)[1..] == w[1..] + tail;
      TakeWordPrefix(w[1..], tail);
    } else {
      assert w + tail == tail;
    }
  }

  /** `re.sub(r'[\d]{1,}', '1', w)`: each maximal run of digits becomes a
      single `1`. */
  function CollapseDigits(w: string): (r: string)
    ensures |r| <= |w|
    ensures (r == []) == (w == [])
    decreases |w|
  {
    if w == [] then []
    else if IsDigit(w[0]) then ['1'] + CollapseDigits(DropDigits(w[1..]))
    else [w[0]] + CollapseDigits(w[1..])
  }

  /** The digits at the front of `s` dropped. */
  function DropDigits(s: string): (r: string)
    ensures |r| <= |s| && r == s[|s| - |r|..]
    ensures r == [] || !IsDigit(r[0])
  {
    if s != [] && IsDigit(s[0]) then DropDigits(s[1..]) else s
  }

  /** The characters of `s` that are not digits, in order. */
  function NonDigits(s: string): string
  {
    if s == [] then [] else (if IsDigit(s[0]) then [] else [s[0]]) + NonDigits(s[1..])
  }

  /** Every digit of `r` is a `1` and no digit follows a digit. */
  predicate Collapsed(r: string)
  {
    forall i :: 0 <= i < |r| && IsDigit(r[i]) ==> r[i] == '1' && (i + 1 < |r| ==> !IsDigit(r[i + 1]))
  }

  predicate HasDigit(w: string) { exists i :: 0 <= i < |w| && IsDigit(w[i]) }

  predicate HasLetter(w: string) { exists i :: 0 <= i < |w| && IsLetter(w[i]) }

  /** Collapsing leaves every run of digits a single `1`. */
  lemma {:induction false} CollapseDigitsCollapsed(w: string)
    ensures Collapsed(CollapseDigits(w))
    decreases |w|
  {
    var r := CollapseDigits(w);
    if w != [] {
      if IsDigit(w[0]) {
        var rest := DropDigits(w[1..]);
        CollapseDigitsCollapsed(rest);
        var cr := CollapseDigits(rest);
        assert r == ['1'] + cr;
        assert cr == [] || !IsDigit(cr[0]) by {
          if rest != [] {
            assert cr[0] == rest[0];
          }
        }
        forall i | 1 <= i < |r| && IsDigit(r[i]) ensures r[i] == '1' && (i + 1 < |r| ==> !IsDigit(r[i + 1])) {
          assert r[i] == cr[i - 1];
        }
      } else {
        CollapseDigitsCollapsed(w[1..]);
        var cr := CollapseDigits(w[1..]);
        assert r == [w[0]] + cr;
        forall i | 1 <= i < |r| && IsDigit(r[i]) ensures r[i] == '1' && (i + 1 < |r| ==> !IsDigit(r[i + 1])) {
          assert r[i] == cr[i - 1];
        }
      }
    }
  }

  /** Dropping leading digits drops no other character. */
  lemma {:induction false} DropDigitsNonDigits(s: string)
    ensures NonDigits(DropDigits(s)) == NonDigits(s)
    decreases |s|
  {
    if s != [] && IsDigit(s[0]) {
      DropDigitsNonDigits(s[1..]);
    }
  }

  /** Collapsing keeps every character other than a digit, in order. */
  lemma {:induction false} CollapseDigitsNonDigits(w: string)
    ensures NonDigits(CollapseDigits(w)) == NonDigits(w)
    decreases |w|
  {
    if w != [] {
      var r := CollapseDigits(w);
      if IsDigit(w[0]) {
        var rest := DropDigits(w[1..]);
        DropDigitsNonDigits(w[1..]);
        CollapseDigitsNonDigits(rest);
        assert r == ['1'] + CollapseDigits(rest);
        assert NonDigits(r) == NonDigits(CollapseDigits(rest));
      } else {
        CollapseDigitsNonDigits(w[1..]);
        assert r == [w[0]] + CollapseDigits(w[1..]);
      }
    }
  }

  /** Each character of the collapsed word is a digit or comes from `w`. */
  lemma {:induction false} CollapseDigitsChars(w: string)
    ensures forall c :: c in CollapseDigits(w) ==> IsDigit(c) || c in w
    decreases |w|
  {
    if w != [] {
      var r := CollapseDigits(w);
      var rest := if IsDigit(w[0]) then DropDigits(w[1..]) else w[1..];
      CollapseDigitsChars(rest);
      assert forall c :: c in rest ==> c in w;
      assert r == (if IsDigit(w[0]) then ['1'] else [w[0]]) + CollapseDigits(rest);
    }
  }

  /** A character other than a digit in front changes nothing about having
      a digit. */
  lemma HasDigitCons(c: char, s: string)
    requires !IsDigit(c)
    ensures HasDigit([c] + s) <==> HasDigit(s)
  {
    var cs := [c] + s;
    if HasDigit(s) {
      var i :| 0 <= i < |s| && IsDigit(s[i]);
      assert cs[i + 1] == s[i];
    }
    if HasDigit(cs) {
      var i :| 0 <= i < |cs| && IsDigit(cs[i]);
      assert s[i - 1] == cs[i];
    }
  }

  /** The collapsed word has a digit exactly when `w` has one. */
  lemma {:induction false} CollapseDigitsHasDigit(w: string)
    ensures HasDigit(CollapseDigits(w)) <==> HasDigit(w)
    decreases |w|
  {
    if w != [] {
      var r := CollapseDigits(w);
      if IsDigit(w[0]) {
        assert IsDigit(r[0]);
      } else {
        CollapseDigitsHasDigit(w[1..]);
        assert r == [w[0]] + CollapseDigits(w[1..]);
        assert w == [w[0]] + w[1..];
        HasDigitCons(w[0], CollapseDigits(w[1..]));
        HasDigitCons(w[0], w[1..]);
      }
    }
  }

  /** Collapsing a collapsed word changes nothing. */
  lemma {:induction false} CollapseDigitsIdempotent(w: string)
    ensures CollapseDigits(CollapseDigits(w)) == CollapseDigits(w)
    decreases |w|
  {
    var r := CollapseDigits(w);
    if w != [] {
      if IsDigit(w[0]) {
        var rest := DropDigits(w[1..]);
        var cr := CollapseDigits(rest);
        CollapseDigitsIdempotent(rest);
        assert cr == [] || !IsDigit(cr[0]) by {
          if rest != [] {
            assert cr[0] == rest[0];
          }
        }
        assert r == ['1'] + cr;
        assert r[1..] == cr;
        assert DropDigits(r[1..]) == cr;
      } else {
        CollapseDigitsIdempotent(w[1..]);
        assert r[1..] == CollapseDigits(w[1..]);
      }
    }
  }

  /** Every character of `s` is a digit. */
  predicate AllDigits(s: string) { forall i :: 0 <= i < |s| ==> IsDigit(s[i]) }

  /** A digit run followed by nothing or by a non-digit is dropped whole. */
  lemma {:induction false} DropDigitsRun(x: string, y: string)
    requires AllDigits(x)
    requires y == [] || !IsDigit(y[0])
    ensures DropDigits(x + y) == y
    decreases |x|
  {
    if x != [] {
      assert (x + y)[1..] == x[1..] + y;
      DropDigitsRun(x[1..], y);
    } else {
      assert x + y == y;
    }
  }

  /** Dropping the leading digits of `x + y` stops inside `x` when `x` holds
      a non-digit. */
  lemma {:induction false} DropDigitsAppend(x: string, y: string)
    requires !AllDigits(x)
    ensures DropDigits(x + y) == DropDigits(x) + y
    decreases |x|
  {
    if IsDigit(x[0]) {
      assert (x + y)[1..] == x[1..] + y;
      DropDigitsAppend(x[1..], y);
    }
  }

  /** A non-empty run of digits collapses to `"1"`, and a string without
      digits is left as it is. */
  lemma {:induction false} CollapseRun(x: string)
    ensures AllDigits(x) && x != [] ==> CollapseDigits(x) == "1"
    ensures !HasDigit(x) ==> CollapseDigits(x) == x
    decreases |x|
  {
    if x != [] {
      if AllDigits(x) {
        DropDigitsRun(x[1..], []);
        assert x[1..] + [] == x[1..];
      }
      if !HasDigit(x) {
        assert !HasDigit(x[1..]) by {
          forall i | 0 <= i < |x[1..]| ensures !IsDigit(x[1..][i]) {
            assert x[1..][i] == x[i + 1];
          }
        }
        CollapseRun(x[1..]);
        assert !IsDigit(x[0]) by { assert 0 < |x|; }
      }
    }
  }

  /** Collapsing works piece by piece wherever the cut does not split a run
      of digits: together with CollapseRun this replaces each maximal digit
      run by one `1` where it stands. */
  lemma {:induction false} CollapseAppend(x: string, y: string)
    requires x == [] || y == [] || !IsDigit(x[|x| - 1]) || !IsDigit(y[0])
    ensures CollapseDigits(x + y) == CollapseDigits(x) + CollapseDigits(y)
    decreases |x|
  {
    if x == [] {
      assert x + y == y;
    } else if !IsDigit(x[0]) {
      CollapseAppend(x[1..], y);
      CollapseAppendOther(x, y);
    } else if AllDigits(x[1..]) {
      CollapseAppendRun(x, y);
    } else {
      var z := DropDigits(x[1..]);
      DropDigitsNonEmpty(x[1..]);
      assert z[|z| - 1] == x[1..][|x| - 2] == x[|x| - 1];
      CollapseAppend(z, y);
      CollapseAppendStep(x, y);
    }
  }

  /** Collapsing a word that starts with a digit. */
  lemma CollapseHeadDigit(w: string)
    requires w != [] && IsDigit(w[0])
    ensures CollapseDigits(w) == "1" + CollapseDigits(DropDigits(w[1..]))
  {
  }

  /** Collapsing a word that starts with a non-digit. */
  lemma CollapseHeadOther(w: string)
    requires w != [] && !IsDigit(w[0])
    ensures CollapseDigits(w) == [w[0]] + CollapseDigits(w[1..])
  {
  }

  /** The head and tail of `x + y` for a non-empty `x`. */
  lemma HeadTailAppend(x: string, y: string)
    requires x != []
    ensures (x + y)[0] == x[0] && (x + y)[1..] == x[1..] + y
  {
  }

  /** Concatenation regrouped. */
  lemma Regroup(p: string, a: string, b: string)
    ensures p + (a + b) == (p + a) + b
  {
  }

  /** CollapseAppend when `x` starts with a non-digit, given the property
      for its tail. */
  lemma CollapseAppendOther(x: string, y: string)
    requires x != [] && !IsDigit(x[0])
    requires CollapseDigits(x[1..] + y) == CollapseDigits(x[1..]) + CollapseDigits(y)
    ensures CollapseDigits(x + y) == CollapseDigits(x) + CollapseDigits(y)
  {
    HeadTailAppend(x, y);
    CollapseHeadOther(x + y);
    CollapseHeadOther(x);
    Regroup([x[0]], CollapseDigits(x[1..]), CollapseDigits(y));
  }

  /** CollapseAppend when `x` is one run of digits. */
  lemma CollapseAppendRun(x: string, y: string)
    requires x != [] && IsDigit(x[0]) && AllDigits(x[1..])
    requires y == [] || !IsDigit(y[0])
    ensures CollapseDigits(x + y) == CollapseDigits(x) + CollapseDigits(y)
  {
    HeadTailAppend(x, y);
    CollapseHeadDigit(x + y);
    CollapseHeadDigit(x);
    DropDigitsRun(x[1..], y);
    DropDigitsRun(x[1..], []);
    assert x[1..] + [] == x[1..];
  }

  /** CollapseAppend when `x` starts with a digit run that ends inside it,
      given the property for what follows the run. */
  lemma CollapseAppendStep(x: string, y: string)
    requires x != [] && IsDigit(x[0]) && !AllDigits(x[1..])
    requires CollapseDigits(DropDigits(x[1..]) + y) == CollapseDigits(DropDigits(x[1..])) + CollapseDigits(y)
    ensures CollapseDigits(x + y) == CollapseDigits(x) + CollapseDigits(y)
  {
    HeadTailAppend(x, y);
    CollapseHeadDigit(x + y);
    CollapseHeadDigit(x);
    DropDigitsAppend(x[1..], y);
    Regroup("1", CollapseDigits(DropDigits(x[1..])), CollapseDigits(y));
  }

  /** Leading digits drop to nothing only when they are the whole string. */
  lemma {:induction false} DropDigitsNonEmpty(s: string)
    requires !AllDigits(s)
    ensures DropDigits(s) != []
    decreases |s|
  {
    if IsDigit(s[0]) {
      assert !AllDigits(s[1..]) by {
        var i :| 0 <= i < |s| && !IsDigit(s[i]);
        assert s[1..][i - 1] == s[i];
      }
      DropDigitsNonEmpty(s[1..]);
    }
  }

  /** The body of the word loop (preprocess.py:40-43): a word with a digit and
      no ASCII letter has its digit runs collapsed; any other word is kept.
      The result is still a word, holds a digit or a letter exactly when `w`
      does, keeps the characters other than digits in order, and, when it
      differs from `w`, has every digit a `1` with no two digits adjacent;
      where each `1` stands is NormalizeWordRuns.
      `strip` is left out: a word from `split` has no surrounding whitespace. */
  function NormalizeWord(w: string): (r: string)
    ensures HasLetter(w) || !HasDigit(w) ==> r == w
    ensures IsWord(w) ==> IsWord(r)
    ensures HasDigit(r) == HasDigit(w) && HasLetter(r) == HasLetter(w)
    ensures NonDigits(r) == NonDigits(w)
    ensures r != w ==> Collapsed(r)
  {
    if HasDigit(w) && !HasLetter(w) then
      CollapsedWord(w);
      CollapseDigits(w)
    else w
  }

  /** Collapsing a word with a digit and no letter keeps it a word with a
      digit and no letter, its other characters in order, and leaves it
      collapsed. */
  lemma CollapsedWord(w: string)
    requires HasDigit(w) && !HasLetter(w)
    ensures var r := CollapseDigits(w);
      HasDigit(r) && !HasLetter(r) && NonDigits(r) == NonDigits(w) && Collapsed(r) &&
      (IsWord(w) ==> IsWord(r))
  {
    var r := CollapseDigits(w);
    CollapseDigitsChars(w);
    CollapseDigitsHasDigit(w);
    CollapseDigitsNonDigits(w);
    CollapseDigitsCollapsed(w);
    assert !HasLetter(r) by {
      forall i | 0 <= i < |r| ensures !IsLetter(r[i]) {
        assert r[i] in r;
        if !IsDigit(r[i]) {
          var k :| 0 <= k < |w| && w[k] == r[i];
        }
      }
    }
    if IsWord(w) {
      forall c | c in r ensures !IsSpace(c) {
        assert IsDigit(c) || c in w;
      }
    }
  }

  /** Normalizing a normalized word changes nothing. */
  lemma NormalizeWordIdempotent(w: string)
    ensures NormalizeWord(NormalizeWord(w)) == NormalizeWord(w)
  {
    if HasDigit(w) && !HasLetter(w) {
      CollapseDigitsIdempotent(w);
    }
  }

  /** A word with a digit and no letter normalizes piece by piece wherever
      the cut does not split a digit run; with CollapseRun, each digit run of
      the word becomes one `1` where it stands and everything else stays. */
  lemma NormalizeWordRuns(x: string, y: string)
    requires HasDigit(x + y) && !HasLetter(x + y)
    requires x == [] || y == [] || !IsDigit(x[|x| - 1]) || !IsDigit(y[0])
    ensures NormalizeWord(x + y) == CollapseDigits(x) + CollapseDigits(y)
  {
    CollapseAppend(x, y);
  }

  /** The words after the loop, one per split word, in order. */
  function NormalizeAll(words: seq<string>): (r: seq<string>)
    ensures |r| == |words| && forall i :: 0 <= i < |words| ==> r[i] == NormalizeWord(words[i])
  {
    if words == [] then [] else [NormalizeWord(words[0])] + NormalizeAll(words[1..])
  }

  /** clean_text from line 26 on, as a value. */
  function CleanTextSpec(sentence: string): string
  {
    Join(NormalizeAll(Split(Spaced(sentence))))
  }

  /** A character that `split()` may meet after lines 26-36. */
  predicate Kept(c: char) { Allowed(c) || c == ' ' }

  /** Replacing with a text of kept characters keeps a text of kept
      characters. */
  lemma ReplaceKept(s: string, pat: string, rep: string)
    requires pat != []
    requires forall c :: c in s ==> Kept(c)
    requires forall c :: c in rep ==> Kept(c)
    ensures forall c :: c in Replace(s, pat, rep) ==> Kept(c)
  {
  }

  /** After lines 26-36 only allowed characters and plain spaces are left:
      the spacing replacements bring in nothing the mask let through. */
  lemma SpacedAllowed(s: string)
    ensures forall c :: c in Spaced(s) ==> Allowed(c) || c == ' '
  {
    var t := Replace(Replace(s, "ANN-FOOD", " [F] "), "ANN-DISEASE", " [D] ");
    var m := Mask(t);
    assert forall c :: c in m ==> Kept(c);
    var m1 := Replace(m, ",", " , ");
    ReplaceKept(m, ",", " , ");
    var m2 := Replace(m1, "!", " ! ");
    ReplaceKept(m1, "!", " ! ");
    var m3 := Replace(m2, "(", " ( ");
    ReplaceKept(m2, "(", " ( ");
    var m4 := Replace(m3, ")", " ) ");
    ReplaceKept(m3, ")", " ) ");
    var m5 := Replace(m4, "?", " ? ");
    ReplaceKept(m4, "?", " ? ");
    var m6 := Replace(m5, ":", " : ");
    ReplaceKept(m5, ":", " : ");
    ReplaceKept(m6, ";", " ; ");
  }

  /** Lines 26-36: the sentence reassigned step by step; what is left holds
      only allowed characters and plain spaces, so the only whitespace
      `split()` meets is `' '`. */
  method SpaceOut(sentence: string) returns (s: string)
    ensures s == Spaced(sentence)
    ensures forall c :: c in s ==> Allowed(c) || c == ' '
  {
    SpacedAllowed(sentence);
    s := Replace(sentence, "ANN-FOOD", " [F] ");
    s := Replace(s, "ANN-DISEASE", " [D] ");
    s := Mask(s);
    s := Replace(s, ",", " , ");
    s := Replace(s, "!", " ! ");
    s := Replace(s, "(", " ( ");
    s := Replace(s, ")", " ) ");
    s := Replace(s, "?", " ? ");
    s := Replace(s, ":", " : ");
    s := Replace(s, ";", " ; ");
  }

  /** Lines 40-44: the two nested tests on one word. */
  method NormalizeOne(w: string) returns (word: string)
    ensures word == NormalizeWord(w)
  {
    word := w;
    if HasDigit(word) {
      if !HasLetter(word) {
        word := CollapseDigits(word);
      }
    }
  }

  /** Lines 38-45: the word loop, appending one normalized word per split
      word. */
  method NormalizeWords(parts: seq<string>) returns (words: seq<string>)
    ensures words == NormalizeAll(parts)
  {
    words := [];
    var i := 0;
    while i < |parts|
      invariant 0 <= i <= |parts|
      invariant words == NormalizeAll(parts[..i])
    {
      var word := NormalizeOne(parts[i]);
      NormalizeAllPrefix(parts, i);
      words := words + [word];
      i := i + 1;
    }
    assert parts[..i] == parts;
  }

  /** clean_text from line 26 on: the reassignments of lines 26-36, the word
      loop, then the join. */
  method CleanTextFrom(sentence: string) returns (r: string)
    ensures r == CleanTextSpec(sentence)
  {
    var s := SpaceOut(sentence);
    var words := NormalizeWords(Split(s));
    r := Join(words);
  }

  /** Normalizing one more word of a prefix appends its normalization. */
  lemma NormalizeAllPrefix(words: seq<string>, i: nat)
    requires i < |words|
    ensures NormalizeAll(words[..i + 1]) == NormalizeAll(words[..i]) + [NormalizeWord(words[i])]
  {
    var a, b := NormalizeAll(words[..i + 1]), NormalizeAll(words[..i]) + [NormalizeWord(words[i])];
    assert |a| == |b|;
    forall k | 0 <= k < |a| ensures a[k] == b[k] {
      assert words[..i + 1][k] == words[k];
    }
  }

  /** The result splits back into exactly the normalized words of the spaced
      sentence: one output word per input word, in order, none empty. */
  lemma CleanTextWords(sentence: string)
    ensures Split(CleanTextSpec(sentence)) == NormalizeAll(Split(Spaced(sentence)))
  {
    var parts := Split(Spaced(sentence));
    var words := NormalizeAll(parts);
    assert forall i :: 0 <= i < |words| ==> IsWord(words[i]);
    SplitJoin(words);
  }

  /** A number with a decimal point and a percent sign collapses digit run
      by digit run; a token with a letter is kept. */
  lemma ScenarioNormalize()
    ensures NormalizeWord("12.5%") == "1.1%"
    ensures NormalizeWord("IL6") == "IL6"
  {
    PercentIsNumeric();
    CollapsePercent();
    assert HasLetter("IL6") by {
      assert IsLetter("IL6"[0]);
    }
  }

  /** `12.5%` has a digit and no letter. */
  lemma PercentIsNumeric()
    ensures HasDigit("12.5%") && !HasLetter("12.5%")
  {
    var pct := "12.5%";
    assert IsDigit(pct[0]);
    forall i | 0 <= i < |pct| ensures !IsLetter(pct[i]) {
    }
  }

  /** `12.5%` collapses run by run, each suffix computed from the next. */
  lemma CollapsePercent()
    ensures CollapseDigits("12.5%") == "1.1%"
  {
    CollapseStepKeep('%', "", "");
    assert "%" == ['%'] + "";
    CollapseStepDigit('5', "%", "%", "%");
    assert "5%" == ['5'] + "%";
    CollapseStepKeep('.', "5%", "1%");
    assert ".5%" == ['.'] + "5%";
    DropStepDigit('2', ".5%", ".5%");
    assert "2.5%" == ['2'] + ".5%";
    CollapseStepDigit('1', "2.5%", ".5%", ".1%");
    assert "12.5%" == ['1'] + "2.5%";
  }

  /** A leading character other than a digit is kept. */
  lemma CollapseStepKeep(c: char, rest: string, collapsed: string)
    requires !IsDigit(c) && CollapseDigits(rest) == collapsed
    ensures CollapseDigits([c] + rest) == [c] + collapsed
    ensures DropDigits([c] + rest) == [c] + rest
  {
    assert ([c] + rest)[1..] == rest;
  }

  /** A leading digit in front of the digits dropped from `rest` goes too. */
  lemma DropStepDigit(c: char, rest: string, dropped: string)
    requires IsDigit(c) && DropDigits(rest) == dropped
    ensures DropDigits([c] + rest) == dropped
  {
    var s := [c] + rest;
    assert s != [] && IsDigit(s[0]) && s[1..] == rest;
    calc {
      DropDigits(s);
      DropDigits(s[1..]);
      dropped;
    }
  }

  /** A leading digit starts a run that becomes a single `1`. */
  lemma CollapseStepDigit(c: char, rest: string, dropped: string, collapsed: string)
    requires IsDigit(c) && DropDigits(rest) == dropped && CollapseDigits(dropped) == collapsed
    ensures CollapseDigits([c] + rest) == ['1'] + collapsed
  {
    assert ([c] + rest)[1..] == rest;
  }
}

=== FILE: dicts.dfy ===
/** The two dictionary comprehensions the core is built from:
    `{x: i for i, x in enumerate(xs)}` (features.py:36, preprocess.py:84,105,125)
    and its inversion `{i: x for x, i in m.items()}` (preprocess.py:85,106). */
module Dicts {

  /** No element of `xs` appears twice. */
  predicate Distinct<T(==,!new)>(xs: seq<T>)
  {
    forall i, j :: 0 <= i < j < |xs| ==> xs[i] != xs[j]
  }

  /** `i` is the index of the LAST occurrence of `x` in `xs`. */
  predicate IsLastIndex<T(==,!new)>(xs: seq<T>, x: T, i: int)
  {
    0 <= i < |xs| && xs[i] == x && forall j :: i < j < |xs| ==> xs[j] != x
  }

  /** `{x: i for i, x in enumerate(xs)}`: the keys are the elements of `xs`,
      each mapped to a position holding it. */
  function IndexMap<T(==,!new)>(xs: seq<T>): (m: map<T, int>)
    ensures forall x :: x in m <==> x in xs
    ensures forall x :: x in m ==> 0 <= m[x] < |xs| && xs[m[x]] == x
    decreases |xs|
  {
    if xs == [] then map[]
    else
      var init := xs[..|xs| - 1];
      assert forall x :: x in xs <==> x in init || x == xs[|xs| - 1];
      IndexMap(init)[xs[|xs| - 1] := |xs| - 1]
  }

  /** The comprehension visits `xs` left to right, so a later occurrence of a
      key overwrites an earlier one: each key maps to its LAST position. */
  lemma {:induction false} IndexMapLast<T(!new)>(xs: seq<T>, x: T)
    requires x in xs
    ensures IsLastIndex(xs, x, IndexMap(xs)[x])
    decreases |xs|
  {
    var last := |xs| - 1;
    if xs[last] != x {
      var init := xs[..last];
      assert x in init by {
        var i :| 0 <= i < |xs| && xs[i] == x;
        assert init[i] == x;
      }
      IndexMapLast(init, x);
    }
  }

  /** On a duplicate-free sequence the comprehension numbers the elements
      densely: element `i` gets id `i`, so the ids are exactly `0..|xs|-1`. */
  lemma IndexMapDense<T(!new)>(xs: seq<T>)
    requires Distinct(xs)
    ensures forall i :: 0 <= i < |xs| ==> IndexMap(xs)[xs[i]] == i
    ensures IndexMap(xs).Values == Range(|xs|)
  {
    var m := IndexMap(xs);
    forall i | 0 <= i < |xs| ensures m[xs[i]] == i {
      IndexMapLast(xs, xs[i]);
    }
    forall v | v in m.Values ensures v in Range(|xs|) {
      var x :| x in m && m[x] == v;
    }
    forall v | v in Range(|xs|) ensures v in m.Values {
      assert m[xs[v]] == v;
    }
  }

  /** The ids `0..n-1`. */
  function Range(n: int): (r: set<int>)
    ensures forall i :: i in r <==> 0 <= i < n
    ensures n >= 0 ==> |r| == n
  {
    if n <= 0 then {}
    else
      assert Range(n - 1) * {n - 1} == {};
      Range(n - 1) + {n - 1}
  }

  /** No two keys share a value. */
  ghost predicate Injective<K, V>(m: map<K, V>)
  {
    forall a, b :: a in m && b in m && m[a] == m[b] ==> a == b
  }

  /** `{i: x for x, i in m.items()}`: well defined because `m` is injective, and
      then a true inverse with as many entries as `m`. */
  function Invert<K, V>(m: map<K, V>): (r: map<V, K>)
    requires Injective(m)
    ensures r.Keys == m.Values
    ensures forall x :: x in m ==> r[m[x]] == x
    ensures forall v :: v in r ==> r[v] in m && m[r[v]] == v
  {
    map x | x in m :: m[x] := x
  }
}

=== FILE: distance.dfy ===
/** The signed, saturated distance of every token from an entity span
    (features.py:53-58 for the food entity, 60-65 for the disease entity). */
module Distance {
  import opened Outcomes

  /** Distance of token `i` from the span `[st, end)` before saturation:
      negative before the span, zero inside it, `i - end + 1` after it. */
  function RawDistance(i: int, st: int, end: int): int
  {
    if i < st then i - st else if i < end then 0 else i - end + 1
  }

  /** The two masked overwrites `a[a > max_d] = max_d` then
      `a[a < min_d] = min_d` with `min_d = -max_d`, applied to one value. */
  function Saturate(v: int, maxD: int): (r: int)
    ensures 0 <= maxD ==> -maxD <= r <= maxD
    ensures -maxD <= v <= maxD ==> r == v
    ensures 0 <= maxD && v > maxD ==> r == maxD
    ensures 0 <= maxD && v < -maxD ==> r == -maxD
  {
    var capped := Cap(v, maxD);
    if capped < -maxD then -maxD else capped
  }

  /** The value of token `i` once the slice before the span is filled. */
  function Before(i: int, st: int): int
  {
    if i < st then i - st else 0
  }

  /** The first masked overwrite, `a[a > max_d] = max_d`. */
  function Cap(v: int, maxD: int): int
  {
    if v > maxD then maxD else v
  }

  /** `a[:st] = np.arange(-st, 0)` on an array of `n` zeros fails unless the
      slice and the range have the same length, or the range has length one
      (a size-one range broadcasts onto an empty slice). The slice has
      `min(st, n)` elements, the range `st`. */
  predicate BroadcastFails(n: nat, st: nat)
  {
    st > n && !(st == 1 && n == 0)
  }

  /** The distance array for a span `[st, end)` among `n` tokens. */
  function DistanceSpec(n: nat, st: int, end: int, maxD: int): (r: seq<int>)
    ensures |r| == n
  {
    seq(n, i => Saturate(RawDistance(i, st, end), maxD))
  }

  /** One distance array built the way the source builds it: an array of
      zeros, the slice before the span filled with `i - st`, the slice from
      `end` on filled with `i - end + 1`, then the two clamping passes. */
  method DistanceFeature(n: nat, st: nat, end: nat, maxD: int) returns (r: Result<seq<int>>)
    requires st <= end
    ensures BroadcastFails(n, st) ==> r == Err(BroadcastError(st, n))
    ensures !BroadcastFails(n, st) ==> r == Ok(DistanceSpec(n, st, end, maxD))
  {
    if BroadcastFails(n, st) {
      return Err(BroadcastError(st, n));
    }
    var a := new int[n](_ => 0);
    // a[:st] = np.arange(-st, 0)
    var i := 0;
    while i < n && i < st
      invariant 0 <= i <= n && i <= st
      invariant forall k :: 0 <= k < n ==> a[k] == if k < i then k - st else 0
    {
      a[i] := i - st;
      i := i + 1;
    }
    assert forall k :: 0 <= k < n ==> a[k] == Before(k, st);
    // a[end:] = np.arange(end + 1, n + 1) - end
    var tail := if end < n then end else n;
    i := tail;
    while i < n
      invariant tail <= i <= n
      invariant forall k :: 0 <= k < n ==> a[k] == if tail <= k < i then k - end + 1 else Before(k, st)
    {
      a[i] := i - end + 1;
      i := i + 1;
    }
    // a[a > max_d] = max_d
    i := 0;
    while i < n
      invariant 0 <= i <= n
      invariant forall k :: 0 <= k < n ==> a[k] == if k < i then Cap(RawDistance(k, st, end), maxD) else RawDistance(k, st, end)
    {
      if a[i] > maxD {
        a[i] := maxD;
      }
      i := i + 1;
    }
    // a[a < min_d] = min_d
    i := 0;
    while i < n
      invariant 0 <= i <= n
      invariant forall k :: 0 <= k < n ==> a[k] == if k < i then Saturate(RawDistance(k, st, end), maxD) else Cap(RawDistance(k, st, end), maxD)
    {
      if a[i] < -maxD {
        a[i] := -maxD;
      }
      i := i + 1;
    }
    assert a[..] == DistanceSpec(n, st, end, maxD);
    return Ok(a[..]);
  }

  /** Every value lies in `[-maxD, maxD]`, and the span itself is zero. */
  lemma DistanceBounds(n: nat, st: int, end: int, maxD: int)
    requires 0 <= maxD
    ensures forall i :: 0 <= i < n ==> -maxD <= DistanceSpec(n, st, end, maxD)[i] <= maxD
    ensures forall i :: 0 <= i < n && st <= i < end ==> DistanceSpec(n, st, end, maxD)[i] == 0
  {
  }

  /** With `maxD >= 1` the sign of a value tells where its token is: zero
      exactly inside the span, negative before it, positive after it. */
  lemma DistanceSign(n: nat, st: int, end: int, maxD: int)
    requires 1 <= maxD && st <= end
    ensures forall i :: 0 <= i < n ==> (DistanceSpec(n, st, end, maxD)[i] == 0 <==> st <= i < end)
    ensures forall i :: 0 <= i < n && i < st ==> DistanceSpec(n, st, end, maxD)[i] < 0
    ensures forall i :: 0 <= i < n && end <= i ==> DistanceSpec(n, st, end, maxD)[i] > 0
  {
  }

  /** Values the bound does not reach are the raw distances themselves. */
  lemma DistanceInRange(n: nat, st: int, end: int, maxD: int, i: nat)
    requires i < n && -maxD <= RawDistance(i, st, end) <= maxD
    ensures DistanceSpec(n, st, end, maxD)[i] == RawDistance(i, st, end)
  {
  }

  /** Two entities, one token each, five tokens, food first and disease at
      index 3, `max_d = 5`: no value is clamped. */
  lemma ScenarioSingleTokens()
    ensures DistanceSpec(5, 0, 1, 5) == [0, 1, 2, 3, 4]
    ensures DistanceSpec(5, 3, 4, 5) == [-3, -2, -1, 0, 1]
  {
  }

  /** Ten tokens, food entity at index 0, `max_d = 3`: far tokens clamp to 3. */
  lemma ScenarioSaturation()
    ensures DistanceSpec(10, 0, 1, 3) == [0, 1, 2, 3, 3, 3, 3, 3, 3, 3]
  {
  }
}

=== FILE: entity_locator.dfy ===
/** Locating the two entities in the tagger's output (features.py:35-51):
    the marker lookup through `word2id`, and the shift of the later anchor by
    the extra tokens of the earlier entity. */
module EntityLocator {
  import opened Outcomes
  import opened Tokens
  import opened Dicts

  const FoodMarker: string := "Foodentity"
  const DiseaseMarker: string := "Diseaseentity"

  /** The surface forms of a parse, `[w[0] for w in toks]`. */
  function Surfaces(toks: seq<Token>): (r: seq<string>)
    ensures |r| == |toks| && forall i :: 0 <= i < |toks| ==> r[i] == toks[i].surface
  {
    Project(toks, 0)
  }

  /** `word2id = {w[0]: i for i, w in enumerate(toks)}` followed by
      `word2id['Foodentity']` and `word2id['Diseaseentity']`, in that order
      (features.py:36-38). The food lookup's KeyError is raised first. */
  function LocateMarkers(toks: seq<Token>): (r: Result<(nat, nat)>)
    ensures r.Ok? <==> FoodMarker in Surfaces(toks) && DiseaseMarker in Surfaces(toks)
    ensures FoodMarker !in Surfaces(toks) ==> r == Err(MissingEntityMarker(FoodMarker))
    ensures FoodMarker in Surfaces(toks) && DiseaseMarker !in Surfaces(toks) ==>
              r == Err(MissingEntityMarker(DiseaseMarker))
    ensures r.Ok? ==> r.value.0 < |toks| && r.value.1 < |toks| && r.value.0 != r.value.1
  {
    var word2id := IndexMap(Surfaces(toks));
    if FoodMarker !in word2id then Err(MissingEntityMarker(FoodMarker))
    else if DiseaseMarker !in word2id then Err(MissingEntityMarker(DiseaseMarker))
    else Ok((word2id[FoodMarker], word2id[DiseaseMarker]))
  }

  /** The anchors are the positions of the LAST occurrence of each marker,
      because later keys of the comprehension overwrite earlier ones. */
  lemma LocateMarkersLastOccurrence(toks: seq<Token>)
    requires LocateMarkers(toks).Ok?
    ensures var a := LocateMarkers(toks).value;
      IsLastIndex(Surfaces(toks), FoodMarker, a.0) && IsLastIndex(Surfaces(toks), DiseaseMarker, a.1)
  {
    IndexMapLast(Surfaces(toks), FoodMarker);
    IndexMapLast(Surfaces(toks), DiseaseMarker);
  }

  /** The offset correction of features.py:43-48, as a value: the anchor of
      whichever entity comes later moves forward by the other entity's token
      count minus one, only when that count exceeds one; the other stays. */
  function CorrectOffsets(fSt: nat, dSt: nat, lenF: nat, lenD: nat): (r: (nat, nat))
    ensures r.0 == fSt || r.1 == dSt
    ensures r.0 >= fSt && r.1 >= dSt
    ensures r.1 != dSt ==> fSt < dSt && lenF > 1 && r.1 == dSt + lenF - 1
    ensures r.0 != fSt ==> fSt >= dSt && lenD > 1 && r.0 == fSt + lenD - 1
    ensures fSt < dSt && lenF > 1 ==> r.1 == dSt + lenF - 1
    ensures fSt >= dSt && lenD > 1 ==> r.0 == fSt + lenD - 1
  {
    if fSt < dSt then
      (fSt, if lenF > 1 then dSt + lenF - 1 else dSt)
    else
      (if lenD > 1 then fSt + lenD - 1 else fSt, dSt)
  }

  /** The first `k` surfaces of the original sentence as the marker sentence
      predicts them: position `f` of `s` (the food marker) stands for the
      tokens `food`, position `d` (the disease marker) for `dis`, and every
      other position for itself. */
  function Expand(s: seq<string>, f: int, d: int, food: seq<string>, dis: seq<string>, k: nat): seq<string>
    requires k <= |s|
  {
    if k == 0 then []
    else
      Expand(s, f, d, food, dis, k - 1) +
      (if k - 1 == f then food else if k - 1 == d then dis else [s[k - 1]])
  }

  lemma {:induction false} ExpandLength(s: seq<string>, f: int, d: int, food: seq<string>, dis: seq<string>, k: nat)
    requires k <= |s| && f != d
    ensures |Expand(s, f, d, food, dis, k)| ==
            k + (if 0 <= f < k then |food| - 1 else 0) + (if 0 <= d < k then |dis| - 1 else 0)
  {
    if k > 0 {
      ExpandLength(s, f, d, food, dis, k - 1);
    }
  }

  lemma {:induction false} ExpandIsPrefix(s: seq<string>, f: int, d: int, food: seq<string>, dis: seq<string>, k: nat, n: nat)
    requires k <= n <= |s|
    ensures var short := Expand(s, f, d, food, dis, k);
      |short| <= |Expand(s, f, d, food, dis, n)| && Expand(s, f, d, food, dis, n)[..|short|] == short
  {
    if k < n {
      ExpandIsPrefix(s, f, d, food, dis, k, n - 1);
    }
  }

  /** The correction is right: if the original sentence's surfaces are the
      marker sentence's surfaces with each marker expanded into its entity's
      tokens, then after the shift the food span `[f, f + |food|)` holds
      exactly the food tokens and the disease span `[d, d + |dis|)` exactly
      the disease tokens. Entities are taken to have at least one token: with
      none, the earlier marker vanishes from the expansion but the later
      anchor is not moved back, so its span is one position too far. */
  lemma SpansInExpansion(s: seq<string>, f: nat, d: nat, food: seq<string>, dis: seq<string>)
    requires f < |s| && d < |s| && f != d
    requires |food| >= 1 && |dis| >= 1
    ensures var e := Expand(s, f, d, food, dis, |s|);
      var sp := CorrectOffsets(f, d, |food|, |dis|);
      |e| == |s| + |food| + |dis| - 2 &&
      0 <= sp.0 && sp.0 + |food| <= |e| && e[sp.0..sp.0 + |food|] == food &&
      0 <= sp.1 && sp.1 + |dis| <= |e| && e[sp.1..sp.1 + |dis|] == dis
  {
    ExpandLength(s, f, d, food, dis, |s|);
    CorrectedAnchor(s, f, d, food, dis, f);
    SpanAt(s, f, d, food, dis, f, food);
    CorrectedAnchor(s, f, d, food, dis, d);
    SpanAt(s, f, d, food, dis, d, dis);
  }

  /** The corrected anchor of an entity is the length of the expansion of
      the positions before its marker. */
  lemma CorrectedAnchor(s: seq<string>, f: nat, d: nat, food: seq<string>, dis: seq<string>, p: nat)
    requires f < |s| && d < |s| && f != d && |food| >= 1 && |dis| >= 1 && (p == f || p == d)
    ensures var sp := CorrectOffsets(f, d, |food|, |dis|);
      |Expand(s, f, d, food, dis, p)| == if p == f then sp.0 else sp.1
  {
    ExpandLength(s, f, d, food, dis, p);
  }

  /** The marker at `p` expands to `block`, which starts right after the
      expansion of the positions before `p`. */
  lemma SpanAt(s: seq<string>, f: int, d: int, food: seq<string>, dis: seq<string>, p: nat, block: seq<string>)
    requires p < |s| && f != d && (p == f || p == d)
    requires block == if p == f then food else dis
    ensures var e := Expand(s, f, d, food, dis, |s|);
      var st := |Expand(s, f, d, food, dis, p)|;
      st + |block| <= |e| && e[st..st + |block|] == block
  {
    var before := Expand(s, f, d, food, dis, p);
    var upto := Expand(s, f, d, food, dis, p + 1);
    assert upto == before + block;
    ExpandIsPrefix(s, f, d, food, dis, p + 1, |s|);
    var e := Expand(s, f, d, food, dis, |s|);
    assert e[..|upto|] == upto;
    assert e[|before|..|before| + |block|] == upto[|before|..];
  }
}

=== FILE: features.dfy ===
/** extract_distance_features and the row loop of extract_features
    (features.py:23-118), with the tagger as a parameter `parse`. */
module Features {
  import opened Outcomes
  import opened Tokens
  import opened Text
  import opened Dicts
  import opened EntityLocator
  import opened Distance

  /** The tagger: text to token records. A function value, so the same text
      always gets the same parse. */
  type Parser = string -> seq<Token>

  /** One row of the input frame: columns 'Preprocessed', 'Food Text' and
      'Disease Text'. */
  datatype Row = Row(preprocessed: string, foodText: string, diseaseText: string)

  /** The five lists extract_features returns, in its order
      `(wtokens, fd, dd, chunkf, posf)`. */
  datatype Extracted = Extracted(
    wtokens: seq<seq<string>>,
    fd: seq<seq<int>>,
    dd: seq<seq<int>>,
    chunkf: seq<seq<string>>,
    posf: seq<seq<string>>)

  /** What one row contributes to each of the five lists. */
  datatype RowFeatures = RowFeatures(
    words: seq<string>, food: seq<int>, disease: seq<int>, chunks: seq<string>, pos: seq<string>)

  /** `orig_sen`: every `[F]` replaced by the food text, then every `[D]` by
      the disease text (features.py:88-90). */
  function OrigSentence(row: Row): string
  {
    Replace(Replace(row.preprocessed, "[F]", row.foodText), "[D]", row.diseaseText)
  }

  /** `ent_sen`: the same two replacements with the marker words
      (features.py:93-94). */
  function EntSentence(row: Row): string
  {
    Replace(Replace(row.preprocessed, "[F]", FoodMarker), "[D]", DiseaseMarker)
  }

  /** `tagger_out = tagger.parse(orig_sen), tagger.parse(ent_sen)`
      (features.py:98), in that order. */
  function TaggerOutFor(row: Row, parse: Parser): TaggerOut
  {
    (parse(OrigSentence(row)), parse(EntSentence(row)))
  }

  /** What extract_distance_features computes for a pair `t` read as
      (marker-sentence parse, original-sentence parse) and the token counts
      `lenF`, `lenD` of the two entity texts. */
  function DistanceFeaturesSpec(t: TaggerOut, lenF: nat, lenD: nat, maxD: int): Result<(seq<int>, seq<int>)>
  {
    var located := LocateMarkers(t.0);
    if located.Err? then Err(located.error)
    else
      var anchors := CorrectOffsets(located.value.0, located.value.1, lenF, lenD);
      DistancesAt(|t.1|, anchors.0, anchors.1, lenF, lenD, maxD)
  }

  /** The two arrays for corrected anchors `fSt`, `dSt` among `n` tokens; the
      food array is built, and so can fail, first. */
  function DistancesAt(n: nat, fSt: nat, dSt: nat, lenF: nat, lenD: nat, maxD: int): Result<(seq<int>, seq<int>)>
  {
    if BroadcastFails(n, fSt) then Err(BroadcastError(fSt, n))
    else if BroadcastFails(n, dSt) then Err(BroadcastError(dSt, n))
    else Ok((DistanceSpec(n, fSt, fSt + lenF, maxD), DistanceSpec(n, dSt, dSt + lenD, maxD)))
  }

  /** The reassignments of `f_st` and `d_st` at features.py:43-48. */
  method ShiftLaterAnchor(f0: nat, d0: nat, lenF: nat, lenD: nat) returns (fSt: nat, dSt: nat)
    ensures (fSt, dSt) == CorrectOffsets(f0, d0, lenF, lenD)
  {
    fSt, dSt := f0, d0;
    if fSt < dSt {
      if lenF > 1 {
        dSt := dSt + lenF - 1;
      }
    } else {
      if lenD > 1 {
        fSt := fSt + lenD - 1;
      }
    }
  }

  /** extract_distance_features: tokenize both entity texts, look the
      markers up, shift the later anchor, and build both distance arrays. */
  method ExtractDistanceFeatures(parse: Parser, t: TaggerOut, foodText: string, disText: string, maxD: int)
    returns (r: Result<(seq<int>, seq<int>)>)
    ensures r == DistanceFeaturesSpec(t, |parse(foodText)|, |parse(disText)|, maxD)
  {
    var entsen, origsen := t.0, t.1;
    var lenF := |parse(foodText)|;
    var lenD := |parse(disText)|;
    var located := LocateMarkers(entsen);
    if located.Err? {
      return Err(located.error);
    }
    var tokens := Surfaces(origsen);
    var fSt, dSt := ShiftLaterAnchor(located.value.0, located.value.1, lenF, lenD);
    r := BuildDistances(|tokens|, fSt, dSt, lenF, lenD, maxD);
  }

  /** The two arrays of features.py:50-65: the ends `f_end`, `d_end`, then
      the food array, then the disease array. */
  method BuildDistances(n: nat, fSt: nat, dSt: nat, lenF: nat, lenD: nat, maxD: int)
    returns (r: Result<(seq<int>, seq<int>)>)
    ensures r == DistancesAt(n, fSt, dSt, lenF, lenD, maxD)
  {
    var fEnd := fSt + lenF;
    var dEnd := dSt + lenD;
    var food := DistanceFeature(n, fSt, fEnd, maxD);
    if food.Err? {
      return Err(food.error);
    }
    var dis := DistanceFeature(n, dSt, dEnd, maxD);
    if dis.Err? {
      return Err(dis.error);
    }
    return Ok((food.value, dis.value));
  }

  /** The spec read through its first step: a missing marker, or the two
      arrays for the corrected anchors. */
  lemma DistanceFeaturesUnfold(t: TaggerOut, lenF: nat, lenD: nat, maxD: int)
    ensures var located := LocateMarkers(t.0);
      located.Ok? ==>
        var sp := CorrectOffsets(located.value.0, located.value.1, lenF, lenD);
        DistanceFeaturesSpec(t, lenF, lenD, maxD) == DistancesAt(|t.1|, sp.0, sp.1, lenF, lenD, maxD)
  {
  }

  /** The pair of arrays exists unless a start is past the end, and then
      both have one entry per token, each in `[-maxD, maxD]`. */
  lemma DistancesAtShape(n: nat, fSt: nat, dSt: nat, lenF: nat, lenD: nat, maxD: int)
    requires 0 <= maxD
    ensures DistancesAt(n, fSt, dSt, lenF, lenD, maxD).Ok? <==> !BroadcastFails(n, fSt) && !BroadcastFails(n, dSt)
    ensures DistancesAt(n, fSt, dSt, lenF, lenD, maxD).Err? ==> DistancesAt(n, fSt, dSt, lenF, lenD, maxD).error.BroadcastError?
    ensures var r := DistancesAt(n, fSt, dSt, lenF, lenD, maxD);
      r.Ok? ==>
        |r.value.0| == n && |r.value.1| == n &&
        forall i :: 0 <= i < n ==> -maxD <= r.value.0[i] <= maxD && -maxD <= r.value.1[i] <= maxD
  {
    DistanceBounds(n, fSt, fSt + lenF, maxD);
    DistanceBounds(n, dSt, dSt + lenD, maxD);
  }

  /** Both distance arrays have one entry per record of component 1 and
      every entry lies in `[-maxD, maxD]`; the call fails with a missing
      marker exactly when component 0 lacks one of the two marker words. */
  lemma DistanceFeaturesShape(t: TaggerOut, lenF: nat, lenD: nat, maxD: int)
    requires 0 <= maxD
    ensures var r := DistanceFeaturesSpec(t, lenF, lenD, maxD);
      (r.Err? && r.error.MissingEntityMarker? <==>
         FoodMarker !in Surfaces(t.0) || DiseaseMarker !in Surfaces(t.0)) &&
      (r.Ok? ==>
         |r.value.0| == |t.1| && |r.value.1| == |t.1| &&
         (forall i :: 0 <= i < |t.1| ==> -maxD <= r.value.0[i] <= maxD && -maxD <= r.value.1[i] <= maxD))
  {
    var located := LocateMarkers(t.0);
    if located.Ok? {
      var sp := CorrectOffsets(located.value.0, located.value.1, lenF, lenD);
      DistanceFeaturesUnfold(t, lenF, lenD, maxD);
      DistancesAtShape(|t.1|, sp.0, sp.1, lenF, lenD, maxD);
    }
  }

  /** When the markers are found at `f` and `d` and the original sentence's
      surfaces are the marker sentence's with each marker expanded into its
      entity's tokens (the tokenizations agree),
      the arrays are built without error and, for `maxD >= 1`, the food
      distance is zero exactly on the positions holding the food tokens, and
      likewise for the disease. */
  lemma DistanceFeaturesLocateEntities(t: TaggerOut, f: nat, d: nat, food: seq<string>, dis: seq<string>, maxD: int)
    requires LocateMarkers(t.0) == Ok((f, d))
    requires |food| >= 1 && |dis| >= 1 && 1 <= maxD
    requires Surfaces(t.1) == Expand(Surfaces(t.0), f, d, food, dis, |t.0|)
    ensures DistanceFeaturesSpec(t, |food|, |dis|, maxD).Ok?
    ensures var sp := CorrectOffsets(f, d, |food|, |dis|);
      sp.0 + |food| <= |t.1| && Surfaces(t.1)[sp.0..sp.0 + |food|] == food &&
      sp.1 + |dis| <= |t.1| && Surfaces(t.1)[sp.1..sp.1 + |dis|] == dis
    ensures var sp := CorrectOffsets(f, d, |food|, |dis|);
      var r := DistanceFeaturesSpec(t, |food|, |dis|, maxD).value;
      forall i :: 0 <= i < |t.1| ==> (r.0[i] == 0 <==> sp.0 <= i < sp.0 + |food|)
    ensures var sp := CorrectOffsets(f, d, |food|, |dis|);
      var r := DistanceFeaturesSpec(t, |food|, |dis|, maxD).value;
      forall i :: 0 <= i < |t.1| ==> (r.1[i] == 0 <==> sp.1 <= i < sp.1 + |dis|)
  {
    ExpandedSpans(Surfaces(t.0), Surfaces(t.1), f, d, food, dis, maxD);
    DistanceFeaturesUnfold(t, |food|, |dis|, maxD);
  }

  /** The same over the surface sequences alone: in the expansion the
      corrected spans hold the entities' tokens, and each array is zero on its
      own span only. */
  lemma ExpandedSpans(s0: seq<string>, s1: seq<string>, f: nat, d: nat, food: seq<string>, dis: seq<string>, maxD: int)
    requires f < |s0| && d < |s0| && f != d
    requires |food| >= 1 && |dis| >= 1 && 1 <= maxD
    requires s1 == Expand(s0, f, d, food, dis, |s0|)
    ensures var sp := CorrectOffsets(f, d, |food|, |dis|);
      sp.0 + |food| <= |s1| && s1[sp.0..sp.0 + |food|] == food &&
      sp.1 + |dis| <= |s1| && s1[sp.1..sp.1 + |dis|] == dis
    ensures var sp := CorrectOffsets(f, d, |food|, |dis|);
      var r := DistancesAt(|s1|, sp.0, sp.1, |food|, |dis|, maxD);
      r.Ok? &&
      (forall i :: 0 <= i < |s1| ==> (r.value.0[i] == 0 <==> sp.0 <= i < sp.0 + |food|)) &&
      (forall i :: 0 <= i < |s1| ==> (r.value.1[i] == 0 <==> sp.1 <= i < sp.1 + |dis|))
  {
    var sp := CorrectOffsets(f, d, |food|, |dis|);
    SpansInExpansion(s0, f, d, food, dis);
    DistancesAtZeroes(|s1|, sp.0, sp.1, |food|, |dis|, maxD);
  }

  /** Arrays whose spans fit among the tokens exist, and for `maxD >= 1`
      each is zero exactly on its own span. */
  lemma DistancesAtZeroes(n: nat, fSt: nat, dSt: nat, lenF: nat, lenD: nat, maxD: int)
    requires 1 <= maxD && fSt + lenF <= n && dSt + lenD <= n
    ensures DistancesAt(n, fSt, dSt, lenF, lenD, maxD).Ok?
    ensures var r := DistancesAt(n, fSt, dSt, lenF, lenD, maxD).value;
      (forall i :: 0 <= i < n ==> (r.0[i] == 0 <==> fSt <= i < fSt + lenF)) &&
      (forall i :: 0 <= i < n ==> (r.1[i] == 0 <==> dSt <= i < dSt + lenD))
  {
    DistanceSign(n, fSt, fSt + lenF, maxD);
    DistanceSign(n, dSt, dSt + lenD, maxD);
  }

  /** The contribution of one row to the five lists (features.py:88-116). */
  function RowSpec(row: Row, parse: Parser, maxD: int): Result<RowFeatures>
  {
    var t := TaggerOutFor(row, parse);
    match DistanceFeaturesSpec(t, |parse(row.foodText)|, |parse(row.diseaseText)|, maxD)
    case Err(e) => Err(e)
    case Ok(d) =>
      Ok(RowFeatures(ExtractWordTokens(t), d.0, d.1, ExtractChunkFeatures(t), ExtractPosFeatures(t)))
  }

  /** Row `i` of the five lists. */
  function RowOf(x: Extracted, i: nat): RowFeatures
    requires i < |x.wtokens| && i < |x.fd| && i < |x.dd| && i < |x.chunkf| && i < |x.posf|
  {
    RowFeatures(x.wtokens[i], x.fd[i], x.dd[i], x.chunkf[i], x.posf[i])
  }

  /** What each row contributes, row by row. */
  function RowResults(rows: seq<Row>, parse: Parser, maxD: int): (r: seq<Result<RowFeatures>>)
    ensures |r| == |rows| && forall i :: 0 <= i < |rows| ==> r[i] == RowSpec(rows[i], parse, maxD)
  {
    seq(|rows|, i requires 0 <= i < |rows| => RowSpec(rows[i], parse, maxD))
  }

  /** The five lists grown row by row, as the loop of extract_features grows
      them: the first failing row's error ends everything. */
  function Collect(results: seq<Result<RowFeatures>>): Result<Extracted>
  {
    if results == [] then Ok(Extracted([], [], [], [], []))
    else
      match Collect(results[..|results| - 1])
      case Err(e) => Err(e)
      case Ok(x) =>
        match results[|results| - 1]
        case Err(e) => Err(e)
        case Ok(f) =>
          Ok(Extracted(x.wtokens + [f.words], x.fd + [f.food], x.dd + [f.disease],
                       x.chunkf + [f.chunks], x.posf + [f.pos]))
  }

  /** Collecting succeeds exactly when every row does; then each list has one
      entry per row, entry `i` being row `i`'s contribution; otherwise the
      error is that of the first failing row. */
  lemma {:induction false} CollectRows(results: seq<Result<RowFeatures>>)
    ensures Collect(results).Ok? <==> forall i :: 0 <= i < |results| ==> results[i].Ok?
    ensures var r := Collect(results);
      r.Ok? ==>
        |r.value.wtokens| == |results| && |r.value.fd| == |results| && |r.value.dd| == |results| &&
        |r.value.chunkf| == |results| && |r.value.posf| == |results| &&
        forall i :: 0 <= i < |results| ==> results[i] == Ok(RowOf(r.value, i))
    ensures var r := Collect(results);
      r.Err? ==>
        exists i :: 0 <= i < |results| && results[i] == Err(r.error) &&
          forall j :: 0 <= j < i ==> results[j].Ok?
  {
    if results != [] {
      var init := results[..|results| - 1];
      CollectRows(init);
      assert forall i :: 0 <= i < |init| ==> init[i] == results[i];
    }
  }

  /** The body of extract_features' loop for one row (features.py:88-116):
      both sentences, the tagger pair, the word tokens, the distances (which
      may raise), then the chunk and POS tags. */
  method ExtractRow(row: Row, parse: Parser, maxD: int) returns (r: Result<RowFeatures>)
    ensures r == RowSpec(row, parse, maxD)
  {
    var sen := row.preprocessed;
    var origSen := Replace(sen, "[F]", row.foodText);
    origSen := Replace(origSen, "[D]", row.diseaseText);
    var entSen := Replace(sen, "[F]", FoodMarker);
    entSen := Replace(entSen, "[D]", DiseaseMarker);
    var taggerOut := (parse(origSen), parse(entSen));
    var wordToken := ExtractWordTokens(taggerOut);
    var distances := ExtractDistanceFeatures(parse, taggerOut, row.foodText, row.diseaseText, maxD);
    if distances.Err? {
      return Err(distances.error);
    }
    var chunkTags := ExtractChunkFeatures(taggerOut);
    var posTags := ExtractPosFeatures(taggerOut);
    return Ok(RowFeatures(wordToken, distances.value.0, distances.value.1, chunkTags, posTags));
  }

  /** extract_features: one entry per row appended to each of the five lists,
      in row order; the first row that raises ends the whole call. */
  method ExtractFeatures(rows: seq<Row>, parse: Parser, maxD: int) returns (r: Result<Extracted>)
    ensures r == Collect(RowResults(rows, parse, maxD))
  {
    ghost var results := RowResults(rows, parse, maxD);
    var fd, dd, chunkf, posf, wtokens := [], [], [], [], [];
    var i := 0;
    while i < |rows|
      invariant 0 <= i <= |rows|
      invariant Collect(results[..i]) == Ok(Extracted(wtokens, fd, dd, chunkf, posf))
    {
      var features := ExtractRow(rows[i], parse, maxD);
      assert results[..i + 1][..i] == results[..i];
      if features.Err? {
        assert Collect(results[..i + 1]).Err?;
        CollectErrSticks(results, i + 1);
        return Err(features.error);
      }
      var x := features.value;
      wtokens, fd, dd, chunkf, posf := wtokens + [x.words], fd + [x.food], dd + [x.disease], chunkf + [x.chunks], posf + [x.pos];
      i := i + 1;
    }
    assert results[..i] == results;
    return Ok(Extracted(wtokens, fd, dd, chunkf, posf));
  }

  /** Once a prefix fails, every longer prefix fails with the same error. */
  lemma {:induction false} CollectErrSticks(results: seq<Result<RowFeatures>>, k: nat)
    requires k <= |results| && Collect(results[..k]).Err?
    ensures Collect(results) == Collect(results[..k])
    decreases |results| - k
  {
    if k < |results| {
      var longer := results[..k + 1];
      assert longer[..k] == results[..k];
      CollectErrSticks(results, k + 1);
    } else {
      assert results[..k] == results;
    }
  }

  /** extract_features over whole rows: it succeeds exactly when every row
      does, with entry `i` of each list being row `i`'s contribution, and
      fails with the first failing row's error. */
  lemma ExtractFeaturesRows(rows: seq<Row>, parse: Parser, maxD: int)
    ensures var r := Collect(RowResults(rows, parse, maxD));
      (r.Ok? <==> forall i :: 0 <= i < |rows| ==> RowSpec(rows[i], parse, maxD).Ok?) &&
      (r.Ok? ==>
         |r.value.wtokens| == |rows| && |r.value.fd| == |rows| && |r.value.dd| == |rows| &&
         |r.value.chunkf| == |rows| && |r.value.posf| == |rows| &&
         forall i :: 0 <= i < |rows| ==> RowSpec(rows[i], parse, maxD) == Ok(RowOf(r.value, i))) &&
      (r.Err? ==>
         exists i :: 0 <= i < |rows| && RowSpec(rows[i], parse, maxD) == Err(r.error) &&
           forall j :: 0 <= j < i ==> RowSpec(rows[j], parse, maxD).Ok?)
  {
    CollectRows(RowResults(rows, parse, maxD));
  }

  /** As written, line 98 puts the ORIGINAL sentence's parse in component 0,
      where extract_distance_features looks the markers up, and the MARKER
      sentence's parse in component 1, which every output list is read from.
      So a row succeeds only if the tagger's output for the original sentence
      contains both marker words, and all five entries of a row have the
      length of the marker sentence's parse, the words being its surfaces. */
  lemma RowSpecAsWritten(row: Row, parse: Parser, maxD: int)
    requires 0 <= maxD
    ensures var r := RowSpec(row, parse, maxD);
      var orig, ent := parse(OrigSentence(row)), parse(EntSentence(row));
      (FoodMarker !in Surfaces(orig) ==> r == Err(MissingEntityMarker(FoodMarker))) &&
      (FoodMarker in Surfaces(orig) && DiseaseMarker !in Surfaces(orig) ==>
         r == Err(MissingEntityMarker(DiseaseMarker))) &&
      (r.Err? && r.error.MissingEntityMarker? ==>
         FoodMarker !in Surfaces(orig) || DiseaseMarker !in Surfaces(orig)) &&
      (r.Ok? ==>
         r.value.words == Surfaces(ent) &&
         |r.value.food| == |ent| && |r.value.disease| == |ent| &&
         |r.value.chunks| == |ent| && |r.value.pos| == |ent| &&
         forall i :: 0 <= i < |ent| ==>
           -maxD <= r.value.food[i] <= maxD && -maxD <= r.value.disease[i] <= maxD)
  {
    var t := TaggerOutFor(row, parse);
    DistanceFeaturesShape(t, |parse(row.foodText)|, |parse(row.diseaseText)|, maxD);
  }

  /** The correction as written assumes the earlier entity has a token: a
      food text that parses to nothing, before a one-token disease, expands
      the markers to the single token `flu`, yet the disease anchor stays at
      1, past that token, so the token's disease distance is -1, not 0. */
  lemma EmptyFoodMisplacesDisease()
    ensures Expand([FoodMarker, DiseaseMarker], 0, 1, [], ["flu"], 2) == ["flu"]
    ensures CorrectOffsets(0, 1, 0, 1) == (0, 1)
    ensures DistancesAt(1, 0, 1, 0, 1, 5) == Ok(([1], [-1]))
  {
    assert Expand([FoodMarker, DiseaseMarker], 0, 1, [], ["flu"], 1) == [];
    assert !BroadcastFails(1, 0) && !BroadcastFails(1, 1);
    var food, dis := DistanceSpec(1, 0, 0, 5), DistanceSpec(1, 1, 2, 5);
    assert food[0] == Saturate(RawDistance(0, 0, 0), 5) == 1;
    assert dis[0] == Saturate(RawDistance(0, 1, 2), 5) == -1;
    assert food == [1] && dis == [-1];
  }

  /** Scenario with a two-token food entity before a one-token disease entity,
      markers at 1 and 4: the disease anchor moves to 5, the food anchor stays. */
  lemma ScenarioMultiTokenFood()
    ensures CorrectOffsets(1, 4, 2, 1) == (1, 5)
  {
  }
}

=== FILE: outcomes.dfy ===
/** The two ways extract_distance_features fails, as values instead of
    Python exceptions. */
module Outcomes {

  datatype FeatureError =
    /** `word2id[marker]` raised KeyError (features.py:37-38). */
    | MissingEntityMarker(marker: string)
    /** A slice assignment `a[:start] = np.arange(-start, 0)` on an array of
        `count` zeros could not broadcast (features.py:54,61). */
    | BroadcastError(start: int, count: int)

  datatype Result<T> = Ok(value: T) | Err(error: FeatureError)
}

=== FILE: preprocess.dfy ===
/** model_preprocess (preprocess.py:50-140): the caller's two feature lists
    are overwritten slot by slot. Slots 0 and 1 hold distance rows, 2 chunk
    tags, 3 POS tags, 4 word tokens, and the last slot a length. */
module Preprocess {
  import opened Dicts
  import opened Vocabulary

  /** One entry of a feature list: rows of integers, rows of symbols, or a
      length. */
  datatype Slot = Ints(ints: seq<seq<int>>) | Syms(syms: seq<seq<string>>) | Len(len: nat)

  /** The slot layout model_preprocess reads. */
  predicate Layout(feats: seq<Slot>)
  {
    |feats| >= 6 && feats[0].Ints? && feats[1].Ints? &&
    feats[2].Syms? && feats[3].Syms? && feats[4].Syms? && feats[|feats| - 1].Len?
  }

  /** `MAX_LEN = max(ann_features[-1], unann_features[-1])`. */
  function MaxLen(ann: seq<Slot>, unann: seq<Slot>): (r: nat)
    requires Layout(ann) && Layout(unann)
    ensures r >= ann[|ann| - 1].len && r >= unann[|unann| - 1].len
    ensures r == ann[|ann| - 1].len || r == unann[|unann| - 1].len
  {
    var a, b := ann[|ann| - 1].len, unann[|unann| - 1].len;
    if a >= b then a else b
  }

  /** Every row of slots 0 to 4 fits in `width`. */
  predicate SlotsFit(feats: seq<Slot>, width: int)
    requires Layout(feats)
  {
    Fits(feats[0].ints, width) && Fits(feats[1].ints, width) &&
    Fits(feats[2].syms, width) && Fits(feats[3].syms, width) && Fits(feats[4].syms, width)
  }

  /** Slot `k` post-padded: `pad_sequences(feats[k], value=pad,
      maxlen=width, padding="post")`. The slot keeps its rows in order, each
      row now `width` long, starting with the old row and continuing with
      `pad` only; every other slot is kept. */
  function PadStep(feats: seq<Slot>, k: nat, pad: int, width: nat): (r: seq<Slot>)
    requires k < |feats| && feats[k].Ints? && Fits(feats[k].ints, width)
    ensures |r| == |feats| && r[k].Ints? && |r[k].ints| == |feats[k].ints|
    ensures forall i :: 0 <= i < |feats[k].ints| ==>
      |r[k].ints[i]| == width && r[k].ints[i][..|feats[k].ints[i]|] == feats[k].ints[i] &&
      forall j :: |feats[k].ints[i]| <= j < width ==> r[k].ints[i][j] == pad
    ensures forall j :: 0 <= j < |feats| && j != k ==> r[j] == feats[j]
  {
    PaddedRows(feats[k].ints, pad, width);
    feats[k := Ints(PadRows(feats[k].ints, pad, width))]
  }

  /** Slot `k` re-encoded through `ids`: `[[tag2id[c] for c in row] for row
      in feats[k]]`. */
  function EncodeStep(feats: seq<Slot>, k: nat, ids: map<string, int>): (r: seq<Slot>)
    requires k < |feats| && feats[k].Syms? && Covers(feats[k].syms, ids)
    ensures |r| == |feats| && r[k] == Ints(EncodeRows(feats[k].syms, ids))
    ensures forall j :: 0 <= j < |feats| && j != k ==> r[j] == feats[j]
  {
    feats[k := Ints(EncodeRows(feats[k].syms, ids))]
  }

  /** The lists as model_preprocess leaves them, for vocabularies `chunk`,
      `pos` and `word`: distances padded with `maxD + 1`, then each symbol
      slot encoded and padded with its vocabulary's size, the rest untouched. */
  function Preprocessed(feats: seq<Slot>, maxD: int, width: nat,
                        chunk: map<string, int>, pos: map<string, int>, word: map<string, int>): seq<Slot>
    requires Layout(feats) && SlotsFit(feats, width)
    requires Covers(feats[2].syms, chunk) && Covers(feats[3].syms, pos) && Covers(feats[4].syms, word)
  {
    var s1 := PadStep(PadStep(feats, 0, maxD + 1, width), 1, maxD + 1, width);
    var s2 := PadStep(EncodeStep(s1, 2, chunk), 2, |chunk|, width);
    var s3 := PadStep(EncodeStep(s2, 3, pos), 3, |pos|, width);
    PadStep(EncodeStep(s3, 4, word), 4, |word|, width)
  }

  /** Step 1 for one list (preprocess.py:69-72 and 73-76): both distance
      slots post-padded with `pad` up to `width`. */
  method PadDistances(feats: array<Slot>, pad: int, width: nat)
    requires feats.Length >= 2 && feats[0].Ints? && feats[1].Ints?
    requires Fits(feats[0].ints, width) && Fits(feats[1].ints, width)
    modifies feats
    ensures feats[..] == PadStep(PadStep(old(feats[..]), 0, pad, width), 1, pad, width)
  {
    feats[0] := Ints(PadRows(feats[0].ints, pad, width));
    feats[1] := Ints(PadRows(feats[1].ints, pad, width));
  }

  /** The symbols of slot `k` of both lists, numbered in set-iteration order,
      and slot `k` of both lists re-encoded through that numbering
      (preprocess.py:80-91, 101-112, 121-132). */
  method EncodeSlot(ann: array<Slot>, unann: array<Slot>, k: nat) returns (tag2id: map<string, int>)
    requires ann != unann
    requires k < ann.Length && k < unann.Length && ann[k].Syms? && unann[k].Syms?
    modifies ann, unann
    ensures tag2id.Keys == Symbols(old(ann[k].syms), old(unann[k].syms)) && DenseIds(tag2id)
    ensures Covers(old(ann[k].syms), tag2id) && Covers(old(unann[k].syms), tag2id)
    ensures ann[..] == EncodeStep(old(ann[..]), k, tag2id)
    ensures unann[..] == EncodeStep(old(unann[..]), k, tag2id)
  {
    var tags := Symbols(ann[k].syms, unann[k].syms);
    var order := Enumerate(tags);
    tag2id := IndexMap(order);
    EnumeratedIds(order, tags);
    ann[k] := Ints(EncodeRows(ann[k].syms, tag2id));
    unann[k] := Ints(EncodeRows(unann[k].syms, tag2id));
  }

  /** Slot `k` of both lists post-padded with `pad` up to `width`. */
  method PadBoth(ann: array<Slot>, unann: array<Slot>, k: nat, pad: int, width: nat)
    requires ann != unann
    requires k < ann.Length && k < unann.Length && ann[k].Ints? && unann[k].Ints?
    requires Fits(ann[k].ints, width) && Fits(unann[k].ints, width)
    modifies ann, unann
    ensures ann[..] == PadStep(old(ann[..]), k, pad, width)
    ensures unann[..] == PadStep(old(unann[..]), k, pad, width)
  {
    ann[k] := Ints(PadRows(ann[k].ints, pad, width));
    unann[k] := Ints(PadRows(unann[k].ints, pad, width));
  }

  /** Steps 2 and 3 (chunk tags at `k = 2`, preprocess.py:80-97; POS tags at
      `k = 3`, 101-118): encode slot `k` of both lists, invert the numbering,
      and pad with the inverse's size. */
  method TagStage(ann: array<Slot>, unann: array<Slot>, k: nat, width: nat) returns (tag2id: map<string, int>)
    requires ann != unann
    requires k < ann.Length && k < unann.Length && ann[k].Syms? && unann[k].Syms?
    requires Fits(ann[k].syms, width) && Fits(unann[k].syms, width)
    modifies ann, unann
    ensures tag2id.Keys == Symbols(old(ann[k].syms), old(unann[k].syms)) && DenseIds(tag2id)
    ensures Covers(old(ann[k].syms), tag2id) && Covers(old(unann[k].syms), tag2id)
    ensures ann[..] == PadStep(EncodeStep(old(ann[..]), k, tag2id), k, |tag2id|, width)
    ensures unann[..] == PadStep(EncodeStep(old(unann[..]), k, tag2id), k, |tag2id|, width)
  {
    tag2id := EncodeSlot(ann, unann, k);
    InverseIds(tag2id);
    var id2tag := Invert(tag2id);
    PadBoth(ann, unann, k, |id2tag|, width);
  }

  /** Step 4 (preprocess.py:121-138): encode the word tokens of both lists,
      build `id2wordtoken` with one entry per id, every entry being
      `wordtoken`, and pad with its size. */
  method WordStage<V>(ann: array<Slot>, unann: array<Slot>, width: nat, wordtoken: V)
    returns (wordtoken2id: map<string, int>, id2wordtoken: map<int, V>)
    requires ann != unann
    requires 4 < ann.Length && 4 < unann.Length && ann[4].Syms? && unann[4].Syms?
    requires Fits(ann[4].syms, width) && Fits(unann[4].syms, width)
    modifies ann, unann
    ensures wordtoken2id.Keys == Symbols(old(ann[4].syms), old(unann[4].syms)) && DenseIds(wordtoken2id)
    ensures Covers(old(ann[4].syms), wordtoken2id) && Covers(old(unann[4].syms), wordtoken2id)
    ensures id2wordtoken.Keys == Range(|wordtoken2id|)
    ensures forall i :: i in id2wordtoken ==> id2wordtoken[i] == wordtoken
    ensures ann[..] == PadStep(EncodeStep(old(ann[..]), 4, wordtoken2id), 4, |wordtoken2id|, width)
    ensures unann[..] == PadStep(EncodeStep(old(unann[..]), 4, wordtoken2id), 4, |wordtoken2id|, width)
  {
    wordtoken2id := EncodeSlot(ann, unann, 4);
    id2wordtoken := map i | i in wordtoken2id.Values :: wordtoken;
    assert |id2wordtoken| == |wordtoken2id| by {
      assert id2wordtoken.Keys == Range(|wordtoken2id|);
      assert |id2wordtoken| == |id2wordtoken.Keys|;
    }
    PadBoth(ann, unann, 4, |id2wordtoken|, width);
  }

  /** model_preprocess. `wordtoken` is the value the name `wordtoken` has
      where the comprehension of preprocess.py:126 reads it: that
      comprehension binds `postag` and `i`, so every id maps to that one
      value. The vocabularies chosen by set iteration are returned as ghost
      results so that the new state can be stated. */
  method ModelPreprocess<V>(ann: array<Slot>, unann: array<Slot>, maxD: int, wordtoken: V)
    returns (id2wordtoken: map<int, V>, maxLen: nat,
             ghost chunk: map<string, int>, ghost pos: map<string, int>, ghost word: map<string, int>)
    requires ann != unann && Layout(ann[..]) && Layout(unann[..])
    requires SlotsFit(ann[..], MaxLen(ann[..], unann[..])) && SlotsFit(unann[..], MaxLen(ann[..], unann[..]))
    modifies ann, unann
    ensures maxLen == MaxLen(old(ann[..]), old(unann[..]))
    ensures chunk.Keys == Symbols(old(ann[2].syms), old(unann[2].syms)) && DenseIds(chunk)
    ensures pos.Keys == Symbols(old(ann[3].syms), old(unann[3].syms)) && DenseIds(pos)
    ensures word.Keys == Symbols(old(ann[4].syms), old(unann[4].syms)) && DenseIds(word)
    ensures ann[..] == Preprocessed(old(ann[..]), maxD, maxLen, chunk, pos, word)
    ensures unann[..] == Preprocessed(old(unann[..]), maxD, maxLen, chunk, pos, word)
    ensures id2wordtoken.Keys == Range(|word|) && forall i :: i in id2wordtoken ==> id2wordtoken[i] == wordtoken
  {
    // 1. Zero pad
    maxLen := MaxLen(ann[..], unann[..]);
    PadDistances(ann, maxD + 1, maxLen);
    PadDistances(unann, maxD + 1, maxLen);
    // 2. Chunk tags
    var chunktag2id := TagStage(ann, unann, 2, maxLen);
    chunk := chunktag2id;
    // 3. Part-of-speech tags
    var postag2id := TagStage(ann, unann, 3, maxLen);
    pos := postag2id;
    // 4. Word tokens
    var wordtoken2id;
    wordtoken2id, id2wordtoken := WordStage(ann, unann, maxLen, wordtoken);
    word := wordtoken2id;
  }

  /** Model_preprocess slot by slot: slots 0 to 4 are replaced as described
      and every other slot is kept. */
  lemma PreprocessedSlots(feats: seq<Slot>, maxD: int, width: nat,
                          chunk: map<string, int>, pos: map<string, int>, word: map<string, int>)
    requires Layout(feats) && SlotsFit(feats, width)
    requires Covers(feats[2].syms, chunk) && Covers(feats[3].syms, pos) && Covers(feats[4].syms, word)
    ensures var out := Preprocessed(feats, maxD, width, chunk, pos, word);
      |out| == |feats| && out[5..] == feats[5..] &&
      out[0] == Ints(PadRows(feats[0].ints, maxD + 1, width)) &&
      out[1] == Ints(PadRows(feats[1].ints, maxD + 1, width)) &&
      out[2] == Ints(PadRows(EncodeRows(feats[2].syms, chunk), |chunk|, width)) &&
      out[3] == Ints(PadRows(EncodeRows(feats[3].syms, pos), |pos|, width)) &&
      out[4] == Ints(PadRows(EncodeRows(feats[4].syms, word), |word|, width))
  {
    var out := Preprocessed(feats, maxD, width, chunk, pos, word);
    assert out[5..] == feats[5..];
  }

  /** After model_preprocess every slot from 0 to 4 holds integer rows, as
      many as before and in the same order, each of width `MAX_LEN`; a
      distance row keeps its values and is continued with `maxD + 1`; slots
      after 4, the length slot among them, are untouched. */
  lemma PreprocessedShape(feats: seq<Slot>, maxD: int, width: nat,
                          chunk: map<string, int>, pos: map<string, int>, word: map<string, int>)
    requires Layout(feats) && SlotsFit(feats, width)
    requires Covers(feats[2].syms, chunk) && Covers(feats[3].syms, pos) && Covers(feats[4].syms, word)
    ensures var out := Preprocessed(feats, maxD, width, chunk, pos, word);
      |out| == |feats| && out[5..] == feats[5..] &&
      (forall k :: 0 <= k < 5 ==> out[k].Ints?) &&
      |out[0].ints| == |feats[0].ints| && |out[1].ints| == |feats[1].ints| &&
      |out[2].ints| == |feats[2].syms| && |out[3].ints| == |feats[3].syms| && |out[4].ints| == |feats[4].syms| &&
      (forall k, i :: 0 <= k < 5 && 0 <= i < |out[k].ints| ==> |out[k].ints[i]| == width)
    ensures var out := Preprocessed(feats, maxD, width, chunk, pos, word);
      forall k, i :: 0 <= k < 2 && 0 <= i < |feats[k].ints| ==>
        out[k].ints[i][..|feats[k].ints[i]|] == feats[k].ints[i] &&
        forall j :: |feats[k].ints[i]| <= j < width ==> out[k].ints[i][j] == maxD + 1
  {
    PreprocessedSlots(feats, maxD, width, chunk, pos, word);
    PaddedRows(feats[0].ints, maxD + 1, width);
    PaddedRows(feats[1].ints, maxD + 1, width);
    PaddedRows(EncodeRows(feats[2].syms, chunk), |chunk|, width);
    PaddedRows(EncodeRows(feats[3].syms, pos), |pos|, width);
    PaddedRows(EncodeRows(feats[4].syms, word), |word|, width);
  }

  /** The symbol slots after model_preprocess decode back: with dense
      vocabularies, position `j` of row `i` of slot 2, 3 or 4 holds the id of
      the original symbol when `j` is inside the original row, and otherwise
      the vocabulary's size, which is no id. */
  lemma PreprocessedDecodes(feats: seq<Slot>, maxD: int, width: nat,
                            chunk: map<string, int>, pos: map<string, int>, word: map<string, int>)
    requires Layout(feats) && SlotsFit(feats, width)
    requires Covers(feats[2].syms, chunk) && Covers(feats[3].syms, pos) && Covers(feats[4].syms, word)
    requires DenseIds(chunk) && DenseIds(pos) && DenseIds(word)
    ensures var out := Preprocessed(feats, maxD, width, chunk, pos, word);
      forall i, j :: 0 <= i < |feats[2].syms| && 0 <= j < |feats[2].syms[i]| ==>
        0 <= out[2].ints[i][j] < |chunk| && Invert(chunk)[out[2].ints[i][j]] == feats[2].syms[i][j]
    ensures var out := Preprocessed(feats, maxD, width, chunk, pos, word);
      forall i, j :: 0 <= i < |feats[3].syms| && 0 <= j < |feats[3].syms[i]| ==>
        0 <= out[3].ints[i][j] < |pos| && Invert(pos)[out[3].ints[i][j]] == feats[3].syms[i][j]
    ensures var out := Preprocessed(feats, maxD, width, chunk, pos, word);
      forall i, j :: 0 <= i < |feats[4].syms| && 0 <= j < |feats[4].syms[i]| ==>
        0 <= out[4].ints[i][j] < |word| && out[4].ints[i][j] == word[feats[4].syms[i][j]]
    ensures var out := Preprocessed(feats, maxD, width, chunk, pos, word);
      (forall i, j :: 0 <= i < |feats[2].syms| && |feats[2].syms[i]| <= j < width ==>
         out[2].ints[i][j] == |chunk| && |chunk| !in chunk.Values) &&
      (forall i, j :: 0 <= i < |feats[3].syms| && |feats[3].syms[i]| <= j < width ==>
         out[3].ints[i][j] == |pos| && |pos| !in pos.Values) &&
      (forall i, j :: 0 <= i < |feats[4].syms| && |feats[4].syms[i]| <= j < width ==>
         out[4].ints[i][j] == |word| && |word| !in word.Values)
  {
    PreprocessedSlots(feats, maxD, width, chunk, pos, word);
    PaddedEncoding(feats[2].syms, chunk, width);
    PaddedEncoding(feats[3].syms, pos, width);
    PaddedEncoding(feats[4].syms, word, width);
    InverseIds(word);
  }
}

=== FILE: text.dfy ===
/** Python's `str.replace(pat, rep)` on strings, used by the row loop of
    features.py (marker substitution) and by clean_text in preprocess.py. */
module Text {

  /** `pat` occurs in `s` starting at index `k`. */
  predicate OccursAt(s: string, pat: string, k: int)
  {
    0 <= k && k + |pat| <= |s| && s[k..k + |pat|] == pat
  }

  /** Every non-overlapping occurrence of `pat`, found scanning left to right,
      is replaced by `rep`; the scan resumes after the replaced occurrence. */
  function Replace(s: string, pat: string, rep: string): (r: string)
    requires pat != []
    ensures forall c :: c in r ==> c in s || c in rep
    decreases |s|
  {
    if |s| < |pat| then s
    else if s[..|pat|] == pat then rep + Replace(s[|pat|..], pat, rep)
    else [s[0]] + Replace(s[1..], pat, rep)
  }

  /** A string in which `pat` does not occur is left as it is. */
  lemma {:induction false} ReplaceAbsent(s: string, pat: string, rep: string)
    requires pat != []
    requires forall k :: !OccursAt(s, pat, k)
    ensures Replace(s, pat, rep) == s
    decreases |s|
  {
    if |s| >= |pat| {
      assert !OccursAt(s, pat, 0);
      forall k ensures !OccursAt(s[1..], pat, k) {
        if OccursAt(s[1..], pat, k) {
          assert s[1..][k..k + |pat|] == s[k + 1..k + 1 + |pat|];
          assert OccursAt(s, pat, k + 1);
        }
      }
      ReplaceAbsent(s[1..], pat, rep);
    }
  }

  /** The first occurrence is the one replaced: when nothing in `a + pat + b`
      matches before the end of `a`, the result starts with `a + rep`. */
  lemma {:induction false} ReplaceFirst(a: string, b: string, pat: string, rep: string)
    requires pat != []
    requires forall k :: 0 <= k < |a| ==> !OccursAt(a + pat + b, pat, k)
    ensures Replace(a + pat + b, pat, rep) == a + rep + Replace(b, pat, rep)
    decreases |a|
  {
    if a == [] {
      ReplaceAtHead(pat, b, rep);
    } else {
      var t := a[1..] + pat + b;
      NoMatchInTail(a, b, pat);
      ReplaceFirst(a[1..], b, pat, rep);
      ReplaceKeepsHead(a[0], t, pat, rep);
      ConsConcat(a, rep, Replace(b, pat, rep));
    }
  }

  /** Putting the head back in front of the tail of `a`. */
  lemma ConsConcat(a: string, x: string, y: string)
    requires a != []
    ensures [a[0]] + (a[1..] + x + y) == a + x + y
  {
    assert [a[0]] + a[1..] == a;
  }

  /** A match at the front is replaced and the scan resumes after it. */
  lemma ReplaceAtHead(pat: string, b: string, rep: string)
    requires pat != []
    ensures Replace([] + pat + b, pat, rep) == rep + Replace(b, pat, rep)
  {
    var s := [] + pat + b;
    assert s[..|pat|] == pat && s[|pat|..] == b;
  }

  /** Without a match at the front, the first character is kept. */
  lemma ReplaceKeepsHead(c: char, t: string, pat: string, rep: string)
    requires pat != [] && !OccursAt([c] + t, pat, 0)
    ensures Replace([c] + t, pat, rep) == [c] + Replace(t, pat, rep)
  {
    assert ([c] + t)[1..] == t;
  }

  /** The hypothesis of ReplaceFirst for `a` gives it for `a[1..]`, and
      rules out a match at the front. */
  lemma NoMatchInTail(a: string, b: string, pat: string)
    requires pat != [] && a != []
    requires forall k :: 0 <= k < |a| ==> !OccursAt(a + pat + b, pat, k)
    ensures a + pat + b == [a[0]] + (a[1..] + pat + b)
    ensures !OccursAt([a[0]] + (a[1..] + pat + b), pat, 0)
    ensures forall k :: 0 <= k < |a[1..]| ==> !OccursAt(a[1..] + pat + b, pat, k)
  {
    var t := a[1..] + pat + b;
    assert a + pat + b == [a[0]] + t;
    forall k | 0 <= k < |a[1..]| ensures !OccursAt(t, pat, k) {
      if OccursAt(t, pat, k) {
        OccursShift(a[0], t, pat, k);
      }
    }
  }

  /** An occurrence in `t` is one position further on in `[c] + t`. */
  lemma OccursShift(c: char, t: string, pat: string, k: nat)
    requires OccursAt(t, pat, k)
    ensures OccursAt([c] + t, pat, k + 1)
  {
    assert ([c] + t)[k + 1..k + 1 + |pat|] == t[k..k + |pat|];
  }
}

=== FILE: tokens.dfy ===
/** Token records produced by the tagger and the three projections of
    features.py:5-20. */
module Tokens {

  /** One record of the tagger's output: `(surface, base form, pos, chunk)`,
      read by the source as `w[0]`, `w[1]`, `w[2]`, `w[3]`. */
  datatype Token = Token(surface: string, baseForm: string, pos: string, chunk: string)

  /** The pair `tagger_out` handed to the projections and to
      extract_distance_features: they read component 0 as the parse of the
      marker sentence and component 1 as the parse of the original sentence. */
  type TaggerOut = (seq<Token>, seq<Token>)

  /** Field `w[k]` of a record. */
  function Field(w: Token, k: nat): string
    requires k < 4
  {
    match k
    case 0 => w.surface
    case 1 => w.baseForm
    case 2 => w.pos
    case 3 => w.chunk
  }

  /** `[w[k] for w in toks]`. */
  function Project(toks: seq<Token>, k: nat): (r: seq<string>)
    requires k < 4
    ensures |r| == |toks|
    ensures forall i :: 0 <= i < |toks| ==> r[i] == Field(toks[i], k)
  {
    if toks == [] then [] else [Field(toks[0], k)] + Project(toks[1..], k)
  }

  /** extract_chunk_features: the chunk tag of every record of component 1. */
  function ExtractChunkFeatures(t: TaggerOut): (r: seq<string>)
    ensures |r| == |t.1|
    ensures forall i :: 0 <= i < |r| ==> r[i] == t.1[i].chunk
  {
    Project(t.1, 3)
  }

  /** extract_pos_features: the part-of-speech tag of every record of component 1. */
  function ExtractPosFeatures(t: TaggerOut): (r: seq<string>)
    ensures |r| == |t.1|
    ensures forall i :: 0 <= i < |r| ==> r[i] == t.1[i].pos
  {
    Project(t.1, 2)
  }

  /** extract_word_tokens: the surface form of every record of component 1. */
  function ExtractWordTokens(t: TaggerOut): (r: seq<string>)
    ensures |r| == |t.1|
    ensures forall i :: 0 <= i < |r| ==> r[i] == t.1[i].surface
  {
    Project(t.1, 0)
  }

  /** The three projections are aligned position by position: together with
      the lemmas they rebuild component 1 record for record, and component 0
      plays no part in them. */
  lemma ProjectionsAligned(t: TaggerOut, other: seq<Token>)
    ensures var words, pos, chunks := ExtractWordTokens(t), ExtractPosFeatures(t), ExtractChunkFeatures(t);
      |words| == |pos| == |chunks| == |t.1| &&
      forall i :: 0 <= i < |t.1| ==> Token(words[i], t.1[i].baseForm, pos[i], chunks[i]) == t.1[i]
    ensures ExtractWordTokens((other, t.1)) == ExtractWordTokens(t)
    ensures ExtractPosFeatures((other, t.1)) == ExtractPosFeatures(t)
    ensures ExtractChunkFeatures((other, t.1)) == ExtractChunkFeatures(t)
  {
  }
}

=== FILE: vocabulary.dfy ===
/** The joint vocabulary of a feature slot over both batches, its dense ids,
    the re-encoding of every row through them and the post-padding of rows
    to a common width (preprocess.py:80-138). */
module Vocabulary {
  import opened Dicts

  /** `c` occurs in some row of `rows`. */
  predicate Occurs<T(==,!new)>(rows: seq<seq<T>>, c: T)
  {
    exists i :: 0 <= i < |rows| && c in rows[i]
  }

  /** `[c for row in rows for c in row]`: the rows' elements, row after row. */
  function Flatten<T(==,!new)>(rows: seq<seq<T>>): (r: seq<T>)
    ensures forall c :: c in r <==> Occurs(rows, c)
  {
    if rows == [] then []
    else
      var rest := Flatten(rows[1..]);
      assert forall c :: Occurs(rows, c) <==> c in rows[0] || Occurs(rows[1..], c) by {
        forall c | Occurs(rows, c) && c !in rows[0] ensures Occurs(rows[1..], c) {
          var i :| 0 <= i < |rows| && c in rows[i];
          assert c in rows[1..][i - 1];
        }
        forall c | Occurs(rows[1..], c) ensures Occurs(rows, c) {
          var i :| 0 <= i < |rows[1..]| && c in rows[1..][i];
          assert c in rows[i + 1];
        }
      }
      rows[0] + rest
  }

  /** `set([... slot of a ...] + [... slot of b ...])`: every symbol that occurs
      in a row of either batch, and nothing else. */
  function Symbols<T(==,!new)>(a: seq<seq<T>>, b: seq<seq<T>>): (r: set<T>)
    ensures forall c :: c in r <==> Occurs(a, c) || Occurs(b, c)
  {
    set c | c in Flatten(a) + Flatten(b)
  }

  /** Iterating over a set: some order of its elements, each exactly once. The
      order is not determined, so everything below holds for any order. */
  method Enumerate<T(==,!new)>(s: set<T>) returns (order: seq<T>)
    ensures Distinct(order) && |order| == |s|
    ensures forall x :: x in order <==> x in s
  {
    order := [];
    var rest := s;
    while rest != {}
      invariant rest <= s
      invariant Distinct(order) && |order| + |rest| == |s|
      invariant forall x :: x in order <==> x in s && x !in rest
      decreases |rest|
    {
      var x :| x in rest;
      order := order + [x];
      rest := rest - {x};
    }
  }

  /** Ids that number the keys densely: distinct keys get distinct ids, and
      the ids are exactly `0..|ids|-1`. */
  ghost predicate DenseIds<T>(ids: map<T, int>)
  {
    Injective(ids) && ids.Values == Range(|ids|)
  }

  /** `{tag: i for i, tag in enumerate(tags)}` over an enumeration of the set
      `tags` is a bijection from the tags onto `0..|tags|-1`. */
  lemma EnumeratedIds<T(!new)>(order: seq<T>, tags: set<T>)
    requires Distinct(order) && |order| == |tags|
    requires forall x :: x in order <==> x in tags
    ensures IndexMap(order).Keys == tags && DenseIds(IndexMap(order))
    ensures forall i :: 0 <= i < |order| ==> IndexMap(order)[order[i]] == i
  {
    var m := IndexMap(order);
    IndexMapDense(order);
    assert m.Keys == tags;
    assert |m| == |tags| by {
      assert |m.Keys| == |m|;
    }
  }

  /** `{i: tag for tag, i in tag2id.items()}` decodes every id of a dense
      numbering back to its tag, has one entry per tag, and the pad value
      `len(id2tag)` is not an id. */
  lemma InverseIds<T>(ids: map<T, int>)
    requires DenseIds(ids)
    ensures Invert(ids).Keys == Range(|ids|) && |Invert(ids)| == |ids|
    ensures forall c :: c in ids ==> Invert(ids)[ids[c]] == c
    ensures forall i :: 0 <= i < |ids| ==> Invert(ids)[i] in ids && ids[Invert(ids)[i]] == i
    ensures |ids| !in ids.Values
  {
    var inv := Invert(ids);
    assert |inv| == |inv.Keys|;
  }

  /** `[tag2id[c] for c in row]`. */
  function EncodeRow<T>(row: seq<T>, ids: map<T, int>): (r: seq<int>)
    requires forall c :: c in row ==> c in ids
    ensures |r| == |row|
  {
    seq(|row|, j requires 0 <= j < |row| => ids[row[j]])
  }

  /** Every symbol of `rows` has an id. */
  ghost predicate Covers<T(!new)>(rows: seq<seq<T>>, ids: map<T, int>)
  {
    forall c :: Occurs(rows, c) ==> c in ids
  }

  /** `[[tag2id[c] for c in row] for row in rows]`: same rows, same order. */
  function EncodeRows<T(==,!new)>(rows: seq<seq<T>>, ids: map<T, int>): (r: seq<seq<int>>)
    requires Covers(rows, ids)
    ensures |r| == |rows| && forall i :: 0 <= i < |rows| ==> |r[i]| == |rows[i]|
  {
    seq(|rows|, i requires 0 <= i < |rows| => EncodeRow(rows[i], ids))
  }

  /** Every row is at most `width` long. */
  predicate Fits<T>(rows: seq<seq<T>>, width: int)
  {
    forall i :: 0 <= i < |rows| ==> |rows[i]| <= width
  }

  /** `n` copies of `v`. */
  function Repeat(v: int, n: nat): (r: seq<int>)
    ensures |r| == n && forall j :: 0 <= j < n ==> r[j] == v
  {
    seq(n, _ => v)
  }

  /** Post-padding of one row with `pad` up to `width`. */
  function PadRow(row: seq<int>, pad: int, width: nat): seq<int>
    requires |row| <= width
  {
    row + Repeat(pad, width - |row|)
  }

  /** `pad_sequences(rows, value=pad, maxlen=width, padding="post")` on rows
      that fit. */
  function PadRows(rows: seq<seq<int>>, pad: int, width: nat): (r: seq<seq<int>>)
    requires Fits(rows, width)
    ensures |r| == |rows|
  {
    seq(|rows|, i requires 0 <= i < |rows| => PadRow(rows[i], pad, width))
  }

  /** Padding keeps the rows and their order: every padded row has width
      `width`, starts with the original row and continues with `pad` only. */
  lemma PaddedRows(rows: seq<seq<int>>, pad: int, width: nat)
    requires Fits(rows, width)
    ensures var p := PadRows(rows, pad, width);
      |p| == |rows| &&
      forall i :: 0 <= i < |rows| ==>
        |p[i]| == width && p[i][..|rows[i]|] == rows[i] &&
        forall j :: |rows[i]| <= j < width ==> p[i][j] == pad
  {
    var p := PadRows(rows, pad, width);
    forall i | 0 <= i < |rows|
      ensures |p[i]| == width && p[i][..|rows[i]|] == rows[i]
      ensures forall j :: |rows[i]| <= j < width ==> p[i][j] == pad
    {
      assert p[i] == rows[i] + Repeat(pad, width - |rows[i]|);
    }
  }

  /** Encoding through a dense numbering, then padding with its size: every
      row keeps its place and gets width `width`; a position inside the
      original row holds a real id that decodes back to the original symbol,
      and a position after it holds the pad value, which is no id. */
  lemma {:induction false} PaddedEncoding<T(!new)>(rows: seq<seq<T>>, ids: map<T, int>, width: nat)
    requires DenseIds(ids) && Covers(rows, ids) && Fits(rows, width)
    ensures var p := PadRows(EncodeRows(rows, ids), |ids|, width);
      |p| == |rows| &&
      forall i :: 0 <= i < |rows| ==>
        |p[i]| == width &&
        (forall j :: 0 <= j < |rows[i]| ==>
           0 <= p[i][j] < |ids| && Invert(ids)[p[i][j]] == rows[i][j]) &&
        (forall j :: |rows[i]| <= j < width ==> p[i][j] == |ids| && p[i][j] !in ids.Values)
  {
    var e := EncodeRows(rows, ids);
    var p := PadRows(e, |ids|, width);
    InverseIds(ids);
    PaddedRows(e, |ids|, width);
    forall i, j | 0 <= i < |rows| && 0 <= j < |rows[i]|
      ensures 0 <= p[i][j] < |ids| && Invert(ids)[p[i][j]] == rows[i][j]
    {
      assert rows[i][j] in rows[i];
      assert p[i][..|rows[i]|] == e[i];
      assert p[i][j] == e[i][j] == ids[rows[i][j]];
      assert ids[rows[i][j]] in ids.Values;
    }
  }

  /** Chunk tags `B-NP I-NP` in one batch and `B-NP O` in the other make
      three distinct tags, so their pad id is 3. */
  lemma ScenarioChunkVocabulary()
    ensures Symbols([["B-NP", "I-NP"]], [["B-NP", "O"]]) == {"B-NP", "I-NP", "O"}
    ensures |Symbols([["B-NP", "I-NP"]], [["B-NP", "O"]])| == 3
  {
    var s := Symbols([["B-NP", "I-NP"]], [["B-NP", "O"]]);
    assert Flatten([["B-NP", "I-NP"]]) == ["B-NP", "I-NP"];
    assert Flatten([["B-NP", "O"]]) == ["B-NP", "O"];
    assert s == {"B-NP", "I-NP", "O"};
  }
}
